=== FILE: README.md ===
# Web IDE preview and session logic in Dafny

This project models the sequential logic at the heart of a browser-based
IDE. The IDE keeps a project as an in-memory template tree. It writes
that tree into a sandboxed web container, installs dependencies, starts a
dev server and shows a cache-busted preview URL. The model covers:

- **PreviewController** (`web-container-preview.tsx`). The bootstrap
  controller is a state record: current step, five loading flags,
  setup-complete and in-progress guards, setup error, preview URL and the
  last template snapshot. Its step functions are one setup attempt (with
  its re-entry guard and fail-fast steps 1 to 4), choosing the start
  command, the server-ready listener, the forced re-setup, the
  template-change refresh and the step icons.
- **TemplateTree** and **WebContainerHook** (`use-web-container.ts`). They
  cover the loosely typed template records and their depth-first
  flattening into file writes, the parent-directory rule of `writeFile` /
  `writeFileSync`, the template sync, the boot result and `destroy`.
- **RouteGuard** (`middleware.ts`). This is the request routing decision.
- **AuthCallbacks** (`auth.ts`). This covers the open-redirect guard, the
  `session` and `jwt` copy rules, and the outcome of `signIn`.
- **AiSuggestions** (`use-ai-suggestions.tsx`). This is the suggestion
  state reducer.
- **PlaygroundLoader** (`use-playground.tsx`). This covers the source
  precedence and normalisation of a loaded template, and the
  save-then-commit rule.
- **DashboardListing** (`app/dashboard/layout.tsx`). This is the sidebar
  entry formatter.
- **Common** holds shared pieces: `Option`/`Result` and the string
  operations the code uses (`split`, `join`, `startsWith`, `includes`,
  `trim`).

All effects are explicit parameters rather than performed: sandbox mount,
spawn and exit codes, filesystem calls, database lookups, `fetch`,
`JSON.parse` and `Date.now()`. The manifest is the set of its script
names whose value is truthy. Template snapshots are their JSON texts. A
URL's origin is an uninterpreted function.

Points of the code's behaviour that a reader might not expect:

- The flattening writes depth first, in `items` order
  (`TemplateTree.FlattenItemsIsLeaves`).
- A failed setup is not terminal: the guard admits a new attempt after a
  failure (`PreviewController.RetryAfterFailure`).
- There is no separate ready step. A server-ready event sets completion
  and the `ready` flag but leaves the step number as it was.
- The transformer is not part of this model, so the transform step never
  fails here.

## Model

| member | source | states |
|---|---|---|
| PreviewController.AttemptSetup | features/web-containers/components/web-container-preview.tsx:68-267 | a guarded attempt changes nothing; an admitted one ends on the last step it set; a failure records its message with in-progress and every flag off; a success stays in progress at step 4 with no error; a throwing mount, a throwing install spawn and a manifest read or parse that fails each end the attempt with the thrown message, at steps 1-2, 1-3 and 1-4 respectively; an admitted attempt succeeds iff mount and install succeed, the manifest is read, a start command exists, a planned build exits with 0 and the start spawn does not throw, and a throwing build or start spawn fails with its own message; the preview URL, snapshot and completion flag are never touched |
| PreviewController.StartServer | features/web-containers/components/web-container-preview.tsx:79-140 | it succeeds iff a start command exists, a planned build exits with 0 and the start spawn does not throw, and then it has spawned the rest of the plan; with no start command it fails with the no-start-script error and spawns nothing; a throwing build or start spawn fails with that spawn's own message; a failure records its message |
| PreviewController.ChooseStart | features/web-containers/components/web-container-preview.tsx:79-116 | a truthy `dev` gives `run dev` and no build; otherwise `start` gives `run start`, with a build first exactly when `build` exists; with neither there is no start command |
| PreviewController.ChooseStartShapes | features/web-containers/components/web-container-preview.tsx:106-116 | only `run dev` and `run start` are ever chosen; a build only precedes `run start`; there is no command iff neither `dev` nor `start` exists |
| PreviewController.SetupGuard | features/web-containers/components/web-container-preview.tsx:68-70 | an attempt is blocked iff there is no instance, or setup is complete or in progress; a blocked attempt changes nothing and spawns nothing |
| PreviewController.SetupPhasesOrdered | features/web-containers/components/web-container-preview.tsx:144-249 | the `currentStep` values an admitted attempt sets run 1, 2, 3, 4 in order without skipping and stops on the last step reached; it never touches the preview URL, snapshot or completion flag |
| PreviewController.SetupFailureState | features/web-containers/components/web-container-preview.tsx:250-266 | a failure stores its message as the setup error, clears in-progress and turns every loading flag off |
| PreviewController.SetupSuccessState | features/web-containers/components/web-container-preview.tsx:230-249 | success leaves setup in progress and not complete, at step 4 with `starting` on, the last spawn being `npm` with the start arguments chosen from the manifest read |
| PreviewController.DevScriptWins | features/web-containers/components/web-container-preview.tsx:79-137 | with a `dev` script the spawns are clean, install, `npm run dev`, whatever `build` holds; it succeeds unless that spawn throws, and then fails with its message |
| PreviewController.StartScriptWithOptionalBuild | features/web-containers/components/web-container-preview.tsx:86-126 | without `dev` but with `start`, `npm run build` is spawned before `npm run start` exactly when a `build` script exists |
| PreviewController.NoStartScriptFails | features/web-containers/components/web-container-preview.tsx:79-116 | with neither script, including an empty manifest text read as `{}`, the attempt fails with the no-start-script message and spawns only clean and install |
| PreviewController.FailFast | features/web-containers/components/web-container-preview.tsx:171-222 | a failing mount spawns nothing; a non-zero install exit stops at step 3 before the manifest is read; a non-zero build exit stops before the start spawn |
| PreviewController.CleanFailureSwallowed | features/web-containers/components/web-container-preview.tsx:193-200 | the clean step's outcome never changes the attempt |
| PreviewController.SpawnedFollowsPlan | features/web-containers/components/web-container-preview.tsx:193-249 | the spawned commands are always a prefix of clean, install, optional build, start for the manifest read |
| PreviewController.RetryAfterFailure | features/web-containers/components/web-container-preview.tsx:68-267 | after a failed attempt the guard admits another one |
| PreviewController.NoReentryAfterSuccess | features/web-containers/components/web-container-preview.tsx:68-73 | after a successful attempt the guard blocks another one until a reset |
| PreviewController.CacheBust | features/web-containers/components/web-container-preview.tsx:299 | the busted URL keeps the URL as a prefix and its text before the first `?`, then `&` or `?` depending on whether the URL holds a `?`, then `t=` and the token |
| PreviewController.CacheBustInjective | features/web-containers/components/web-container-preview.tsx:299 | different tokens give different busted URLs |
| PreviewController.ServerReady | features/web-containers/components/web-container-preview.tsx:293-307 | the preview URL becomes the cache-busted `url`; setup becomes complete and not in progress, `ready` on and `starting` off, the other flags, the step, error and snapshot unchanged |
| PreviewController.ServerReadyRepeat | features/web-containers/components/web-container-preview.tsx:293-307 | a repeated server-ready event for the same URL changes only the token, and distinct tokens give distinct preview URLs |
| PreviewController.ForceResetup | features/web-containers/components/web-container-preview.tsx:51-65 | a forced reset clears complete and in-progress, the step, the preview URL and every flag, keeping the error and snapshot; otherwise nothing changes |
| PreviewController.ResetupAdmitsSetup | features/web-containers/components/web-container-preview.tsx:51-73 | after a forced reset an attempt with an instance runs |
| PreviewController.RefreshUrl | features/web-containers/components/web-container-preview.tsx:282-283 | the refreshed URL is the text before the first `?` followed by `?t=` and the token; the `&` branch never applies |
| PreviewController.TemplateChanged | features/web-containers/components/web-container-preview.tsx:274-287 | the snapshot is always updated; the preview URL is refreshed iff the previous snapshot text is non-empty and differs and the URL is non-empty, and is unchanged otherwise; nothing else changes |
| PreviewController.EditAfterReadyRefreshes | features/web-containers/components/web-container-preview.tsx:274-307 | a template edit after server-ready republishes the served URL's base with a new token and keeps setup complete |
| PreviewController.StepIconOf | features/web-containers/components/web-container-preview.tsx:359-367 | a step shows done iff it is below the current step, and active iff it is the current step |
| PreviewController.StepIconsOrdered | features/web-containers/components/web-container-preview.tsx:359-367 | done steps form a prefix, pending steps a suffix, and at most one step is active |
| PreviewController.ReachableConsistent | features/web-containers/components/web-container-preview.tsx:51-307 | in every state between events, setup is never both complete and in progress; in progress means step 4 with only `starting` on and no error; `ready` implies complete |
| PreviewController.LastJsonNeverEmpty | features/web-containers/components/web-container-preview.tsx:276-286 | starting from the text `null`, with non-empty snapshot texts the previous-snapshot test of the refresh guard never fails |
| TemplateTree.FlattenItem | features/web-containers/hooks/use-web-container.ts:79-98 | every path written for a record lies under the current folder path; a record with neither `folderName` nor `filename` writes nothing |
| TemplateTree.FlattenItems | features/web-containers/hooks/use-web-container.ts:86-89 | every path written for an array lies under the current folder path |
| TemplateTree.Flatten | features/web-containers/hooks/use-web-container.ts:100-105 | a non-array `items` writes nothing; otherwise the writes are exactly the rendered file leaves of the tree |
| TemplateTree.FlattenItemsIsLeaves | features/web-containers/hooks/use-web-container.ts:79-98 | the flattening writes exactly one entry per file leaf and none for folders, depth first in `items` order, each at its ancestors' folder path |
| TemplateTree.FlattenIsLeaves | features/web-containers/hooks/use-web-container.ts:100-105 | syncing a template writes exactly its file leaves below the root, so the root folder's name appears in no path; a non-array `items` writes nothing |
| TemplateTree.FlattenItemsAppend | features/web-containers/hooks/use-web-container.ts:86-89 | processing two arrays in sequence writes their entries in sequence |
| TemplateTree.FolderKeyWins | features/web-containers/hooks/use-web-container.ts:83-97 | a record with `folderName` is a folder even when it has file keys; a record with neither key writes nothing |
| TemplateTree.EmptyFolderWritesNothing | features/web-containers/hooks/use-web-container.ts:83-90 | a folder with an empty or non-array `items` writes nothing |
| TemplateTree.PathOfIsJoin | features/web-containers/hooks/use-web-container.ts:85 | with non-empty folder names, the folder path is the names joined by `/` with no leading `/` |
| TemplateTree.LeafPathShape | features/web-containers/hooks/use-web-container.ts:85-95 | a file path splits at `/` into its ancestor folder names followed by `filename.fileExtension` |
| WebContainerHook.ParentDir | features/web-containers/hooks/use-web-container.ts:69-70 | the parent directory is a prefix of the path and, when non-empty, is followed by the path's last `/` |
| WebContainerHook.ParentDirBeforeLastSlash | features/web-containers/hooks/use-web-container.ts:69-70 | the parent directory is the text before the last `/` |
| WebContainerHook.ParentDirNonEmptyIff | features/web-containers/hooks/use-web-container.ts:69-74 | a parent directory to create exists iff the path has a `/` after its first character |
| WebContainerHook.ParentOfChildPath | features/web-containers/hooks/use-web-container.ts:65-95 | the directory created for a flattened file is exactly the folder path it was written under |
| WebContainerHook.WriteFileOps | features/web-containers/hooks/use-web-container.ts:65-77 | `writeFile` issues a `mkdir` of the parent directory iff it is non-empty, then the write |
| WebContainerHook.WriteFileSync | features/web-containers/hooks/use-web-container.ts:117-140 | without an instance it throws "WebContainer instance is not initialized" and does nothing; otherwise it performs the writes and stops at the first one that throws, wrapped as "Failed to write file at <path>: <msg>" |
| WebContainerHook.SyncWritesEntries | features/web-containers/hooks/use-web-container.ts:65-105 | the sync's write operations are exactly the flattened entries in order, and each `mkdir` creates the parent of the write right after it |
| WebContainerHook.SyncTemplate | features/web-containers/hooks/use-web-container.ts:59-115 | nothing happens without an instance or template; otherwise a prefix of the sync operations runs, every operation but the last succeeds, and it stops short only at an operation that fails |
| WebContainerHook.Boot | features/web-containers/hooks/use-web-container.ts:29-47 | after boot, loading is off; a success stores the instance; a failure keeps the instance and stores the error message or the fixed fallback text |
| WebContainerHook.Destroy | features/web-containers/hooks/use-web-container.ts:142-148 | with an instance, it tears it down and clears instance and server URL; without one nothing changes |
| WebContainerHook.DestroyIdempotent | features/web-containers/hooks/use-web-container.ts:142-148 | a second destroy changes nothing and tears nothing down |
| WebContainerHook.ServerUrlStaysNull | features/web-containers/hooks/use-web-container.ts:21-148 | no step of the hook sets a server URL, so it stays null |
| RouteGuard.Decide | middleware.ts:10-37 | only the default post-login page and the sign-in page are redirect targets; an API-auth prefix always passes; an auth route passes iff the user is anonymous |
| RouteGuard.DecideCases | middleware.ts:20-36 | off the API-auth prefix, signed-in users on auth routes go to the default page, anonymous users off public routes go to sign-in, and everything else passes |
| RouteGuard.RedirectReasons | middleware.ts:24-34 | a signed-in user is redirected only away from an auth route; an anonymous user on a public route passes |
| RouteGuard.MembershipIsExact | middleware.ts:14-18 | a path extending every listed route is not on the lists, while any extension of the API-auth prefix passes |
| AuthCallbacks.RedirectTarget | auth.ts:105-111 | a relative URL yields `baseUrl` + url; an absolute one is kept iff its origin is `baseUrl`, else `baseUrl`; an unparsable absolute URL throws |
| AuthCallbacks.RedirectStaysOnSite | auth.ts:105-111 | every target starts with `baseUrl` or has `baseUrl` as origin |
| AuthCallbacks.SessionCallback | auth.ts:96-104 | with a truthy `sub` and a session user, the user's id and role come from the token; otherwise the session is unchanged |
| AuthCallbacks.JwtCallback | auth.ts:81-94 | without `sub` or stored user the token is unchanged; otherwise name, email and role come from the stored user and `sub` is kept |
| AuthCallbacks.SessionSeesStoredRole | auth.ts:81-104 | the session built from a refreshed token carries the stored user's role and the token's id |
| AuthCallbacks.JwtIdempotent | auth.ts:81-94 | refreshing a token twice from the same stored user equals refreshing once |
| AuthCallbacks.SignIn | auth.ts:9-79 | refused without user or account; otherwise allowed iff the user exists or its creation yields one; a user is created iff unknown, an account iff the known user lacks it |
| AiSuggestions.Toggle | features/ai/hooks/use-ai-suggestions.tsx:29-31 | only `isEnabled` changes, and it flips |
| AiSuggestions.ToggleTwice | features/ai/hooks/use-ai-suggestions.tsx:29-31 | toggling twice is the identity |
| AiSuggestions.FetchStart | features/ai/hooks/use-ai-suggestions.tsx:33-100 | with suggestions disabled or no editor, model or cursor, nothing changes and nothing is sent; otherwise only `isLoading` turns on and the request carries the text and the 0-based cursor |
| AiSuggestions.FetchFinish | features/ai/hooks/use-ai-suggestions.tsx:57-97 | loading ends; a truthy suggestion is stored trimmed at the 1-based cursor; without one, or on error, only `isLoading` changes |
| AiSuggestions.FetchAnchorsAtCursor | features/ai/hooks/use-ai-suggestions.tsx:59-88 | the stored position is the request's 0-based cursor plus one in both coordinates |
| AiSuggestions.Dismiss | features/ai/hooks/use-ai-suggestions.tsx:144-171 | reject and clear (same body) drop suggestion, position and decorations, change nothing else, and remove decorations from the editor only when there is one |
| AiSuggestions.DismissIdempotent | features/ai/hooks/use-ai-suggestions.tsx:144-171 | dismissing twice equals dismissing once, and the second removes nothing |
| AiSuggestions.AcceptSuggestion | features/ai/hooks/use-ai-suggestions.tsx:103-142 | as written, accepting changes no field of the state |
| AiSuggestions.AcceptLeavesSuggestionPending | features/ai/hooks/use-ai-suggestions.tsx:103-142 | a pending suggestion is still pending after accept |
| AiSuggestions.AcceptIntended | features/ai/hooks/use-ai-suggestions.tsx:104-141 | with suggestion, position, editor and library present, it inserts the line-number-stripped suggestion at the position and clears it; otherwise nothing happens |
| AiSuggestions.AcceptIntendedOnce | features/ai/hooks/use-ai-suggestions.tsx:104-141 | a second accept inserts nothing |
| AiSuggestions.StripAsWrittenCounterexample | features/ai/hooks/use-ai-suggestions.tsx:117-120 | the pattern as written turns `do {` into `o {` and leaves `1 x` alone |
| AiSuggestions.StripFromIdentity | features/ai/hooks/use-ai-suggestions.tsx:117-120 | text where no line starts with the stripped class is returned unchanged |
| AiSuggestions.StripLineNumbersOneLine | features/ai/hooks/use-ai-suggestions.tsx:117-120 | the intended pattern turns `digits, spaces, text` into `text` |
| AiSuggestions.DecorationsStayEmpty | features/ai/hooks/use-ai-suggestions.tsx:21-171 | with accept as written or as intended, no step stores a decoration, so the list stays empty and reject or clear never removes one |
| PlaygroundLoader.Normalize | features/playground/hooks/use-playground.tsx:56-70 | an array becomes a folder named `Root` holding it and carrying no file keys, another truthy value is used as is, a falsy one becomes an empty `Root` folder |
| PlaygroundLoader.NormalizedArrayFlattens | features/playground/hooks/use-playground.tsx:56-63 | the `Root` wrapper adds nothing to the files written |
| PlaygroundLoader.Load | features/playground/hooks/use-playground.tsx:32-81 | an empty id changes nothing; stored string content is used and the endpoint is not asked, and if it does not parse only the playground, the error and the end of loading are recorded; otherwise the fetched template is normalised; any failure sets the load error and keeps the template; loading ends after every attempt |
| PlaygroundLoader.StoredContentWins | features/playground/hooks/use-playground.tsx:42-49 | with stored string content, the endpoint's answer makes no difference |
| PlaygroundLoader.FetchFailureKeepsTemplate | features/playground/hooks/use-playground.tsx:51-80 | a non-OK or thrown fetch only records the playground, the error and the end of loading |
| PlaygroundLoader.Save | features/playground/hooks/use-playground.tsx:83-93 | the template is committed only when persistence returns; on a thrown error the state is unchanged and the error is rethrown |
| PlaygroundLoader.SaveIdempotent | features/playground/hooks/use-playground.tsx:83-93 | saving the same template twice equals saving it once |
| DashboardListing.IconFor | app/dashboard/layout.tsx:12-27 | a known template key gives its icon, any other key `Code2`; the icon is always one of the map's or `Code2` |
| DashboardListing.Starred | app/dashboard/layout.tsx:26 | starred iff the first star mark exists and is marked |
| DashboardListing.Format | app/dashboard/layout.tsx:22-28 | one entry per playground in order, with its id, title as name, starred flag and icon; no data gives no entries |
| DashboardListing.FormatRowsAppend | app/dashboard/layout.tsx:22-28 | formatting distributes over concatenation, so input order is kept |
| DashboardListing.IconsOfTemplateKeys | app/dashboard/layout.tsx:12-20 | the template keys `REACTJS` and `EXPRESSJS` miss the map and get `Code2`; the other four keys get their icons |

## Findings

| source | as written | input that shows it | evidently intended | confidence | as-written member | corrected member |
|---|---|---|---|---|---|---|
| features/ai/hooks/use-ai-suggestions.tsx:103-142 | the callback's body only defines an inner arrow function and never calls it, so accepting does nothing | any state with a suggestion and a position: after accept the suggestion is still pending | run the inner function: insert the suggestion at its position and clear it | not executed; high | AiSuggestions.AcceptLeavesSuggestionPending | AiSuggestions.AcceptIntended |
| features/ai/hooks/use-ai-suggestions.tsx:117-120 | the pattern `^d+\s*` (multi-line, global) strips runs of the letter `d` at line starts | `do {` becomes `o {`; `1 x` keeps its line number | `^\d+\s*`, stripping leading line numbers | not executed; medium | AiSuggestions.StripAsWrittenCounterexample | AiSuggestions.StripLineNumbersOneLine |

The reducer's event model (`AiSuggestions.ApplyAi`) takes a flag that
selects the accept as written or the corrected one.

## Left out

- Rendering is left out: the JSX markup, the progress bar and all UI
  components. They hold no logic beyond markup.
- The terminal output relay is left out: process output streaming
  (`pipeTo`) and terminal writes. These are effects with no state of the
  controller.
- `localStorage`, console logging and toasts are left out. They are side
  effects only.
- The transformer and the `path-to-json` module are not part of this
  model. The transform step is treated as never failing.
- The React effect scheduling is left out. This covers when each effect
  re-runs, the `mounted` flag and stale-instance cleanup of the boot
  effect, and listener attachment and removal. The step functions are
  applied as explicit events instead.
- The Prisma persistence actions and the template population script are
  left out. Database lookups and creations are abstract results.
  `getAccountByUserId` in `jwt` is called but unused, so it is left out.
- The routes module is not part of this model. `apiAuthPrefix`, the
  route lists and `DEFAULT_LOGIN_REDIRECT` are parameters.
- Tree editing and the open-file session are left out because their
  source is not part of this model.
- PreviewController.AttemptSetup: an attempt is one event, so events
  arriving during its awaits are not interleaved. In the code a
  server-ready event or a forced reset can run while the attempt awaits
  mount, install or the manifest read, and the component shows setup in
  progress at steps 1 to 3. `PreviewController.ReachableConsistent` holds
  only for the states between events.
- The server-ready `port` argument is left out. The handler only logs it.
- PreviewController.Outcomes: a thrown error's text is an abstract
  message. A thrown value that is not an `Error` is rendered by `String`
  in the code; here it is just a message.
- PreviewController.ManifestRead: the manifest is the set of truthy
  script names. Non-string script values and the exact JSON parse error
  text are not modelled.
- RouteGuard.Decide: redirect targets are the relative paths. Resolving
  them against the request URL (`new URL(target, nextUrl)`) is not
  modelled.
- AuthCallbacks.RedirectTarget: the error for an unparsable URL is a
  stand-in text, not the runtime's `TypeError` message.
- AuthCallbacks.SignIn: the non-null assertions on `user.email` and the
  fields copied into the created records are not modelled. Only the
  return value and which record kinds are created are. A database
  lookup or creation that throws makes the callback reject instead of
  returning a boolean; that outcome is not modelled. Creation never
  yields nothing in the code, so `userCreated` false stands for a case
  that does not arise there.
- AiSuggestions.FetchFinish: `Trim` strips the six ASCII white-space
  characters, not every Unicode white space that `trim` removes. A
  non-string `suggestion` value (whose `trim` would throw) is not
  modelled.
- AiSuggestions.StripLineNumbersOneLine: `\s` is likewise limited to the
  six ASCII white-space characters.
- PlaygroundLoader.Save: a persistence call that returns without
  throwing counts as success. This includes the case where it skips
  saving for lack of a signed-in user. The stale `id` captured by the
  callback is not modelled.
- TemplateTree.Item: JSON values are modelled as template records only.
  A `null` or primitive element of `items` makes the `in` test of
  `processItem` throw and stops the sync part-way in the code; here such
  an element cannot be written down.
  A key that is present but `null` looks the same here as a missing one;
  for `filename` and `fileExtension` the code's template literal would
  print `null` where the model has no such key.
- PlaygroundLoader.Load: stored text `"null"` parses to `null` in the
  code and leaves the template null with no error. Here `JSON.parse`
  yields a template record or fails, so the promise that no error means a
  template is present does not cover that case.
- PlaygroundLoader.Load: stored content that is not a string (a JSON
  object) is treated like missing content, and the endpoint is asked, as
  in the code. An empty id leaves `isLoading` at its previous value.
- DashboardListing.IconFor: keys inherited by a JavaScript object (such as
  `constructor`) are not modelled. Template keys never take those values.

=== FILE: ai_suggestions.dfy ===
/**
 The AI code-suggestion hook as a reducer over its state record.  The
 editor is reduced to what the hook reads from it (the model's text and the
 1-based cursor), the HTTP round trip to its possible outcomes, and the
 editor calls the hook makes to what they would be given.

 `acceptSuggestion` as written only builds an inner function and never
 calls it, so accepting changes nothing; `AcceptSuggestion` models that and
 `AcceptIntended` models the inner function it evidently meant to run.
 The inner function also strips leading text with the pattern `^d+\s*`
 (multi-line, global), a literal `d` where a digit class `\d` was
 evidently meant; both readings are modelled.
 */
module AiSuggestions {
  import opened Common

  datatype Position = Position(line: int, column: int)

  datatype AiState = AiState(
    suggestion: Option<string>,
    isLoading: bool,
    position: Option<Position>,
    decoration: seq<string>,
    isEnabled: bool)

  const InitialAi := AiState(None, false, None, [], true)

  /** `toggleEnabled()`. */
  function Toggle(s: AiState): (r: AiState)
    ensures r.isEnabled == !s.isEnabled
    ensures r.(isEnabled := s.isEnabled) == s
  {
    s.(isEnabled := !s.isEnabled)
  }

  lemma ToggleTwice(s: AiState)
    ensures Toggle(Toggle(s)) == s
  {
  }

  /** What the hook reads from the editor: the model's text and the cursor. */
  datatype Editor = Editor(model: Option<string>, cursor: Option<Position>)

  /** The body posted to the suggestion endpoint; the cursor is 0-based. */
  datatype Request = Request(fileContent: string, cursorLine: int, cursorColumn: int, suggestionType: string)

  /** The synchronous part of `fetchSuggestion(type, editor)`: the new state
      and the request it sends, if any. */
  function FetchStart(s: AiState, suggestionType: string, editor: Option<Editor>): (r: (AiState, Option<Request>))
    ensures !s.isEnabled || editor.None? || editor.value.model.None? || editor.value.cursor.None? ==> r == (s, None)
    ensures r.1.Some? ==> r.0 == s.(isLoading := true)
    ensures r.1.Some? ==>
      r.1.value.cursorLine == editor.value.cursor.value.line - 1
      && r.1.value.cursorColumn == editor.value.cursor.value.column - 1
      && r.1.value.fileContent == editor.value.model.value
      && r.1.value.suggestionType == suggestionType
    ensures r.1.None? ==> r.0 == s
    ensures s.isEnabled && editor.Some? && editor.value.model.Some? && editor.value.cursor.Some? ==> r.1.Some?
  {
    if !s.isEnabled then (s, None)
    else match editor
      case None => (s, None)
      case Some(e) =>
        if e.model.None? || e.cursor.None? then (s, None)
        else
          var c := e.cursor.value;
          (s.(isLoading := true), Some(Request(e.model.value, c.line - 1, c.column - 1, suggestionType)))
  }

  /** How the request ended: a non-OK status, a thrown error, or a JSON body
      whose `suggestion` field may be missing. */
  datatype Response = HttpError(status: int) | Failed | Received(suggestion: Option<string>)

  /** The asynchronous completion of a fetch issued at `cursor`, applied to
      whatever the state is when it arrives. */
  function FetchFinish(s: AiState, cursor: Position, response: Response): (r: AiState)
    ensures !r.isLoading && r.isEnabled == s.isEnabled && r.decoration == s.decoration
    ensures response.Received? && Truthy(response.suggestion) ==>
      r.suggestion == Some(Trim(response.suggestion.value)) && r.position == Some(cursor)
    ensures !(response.Received? && Truthy(response.suggestion)) ==> r == s.(isLoading := false)
  {
    if response.Received? && Truthy(response.suggestion) then
      s.(suggestion := Some(Trim(response.suggestion.value)), position := Some(cursor), isLoading := false)
    else s.(isLoading := false)
  }

  /** A suggestion is anchored where the request said the cursor was, back
      in the editor's 1-based coordinates. */
  lemma FetchAnchorsAtCursor(s: AiState, t: string, e: Editor, later: AiState, text: string)
    requires FetchStart(s, t, Some(e)).1.Some?
    requires text != ""
    ensures var req := FetchStart(s, t, Some(e)).1.value;
      FetchFinish(later, e.cursor.value, Received(Some(text))).position == Some(Position(req.cursorLine + 1, req.cursorColumn + 1))
  {
  }

  /** `rejectSuggestion(editor)` and `clearSuggestion(editor)`, whose bodies
      are the same: drop the suggestion; also returns the decorations
      removed from the editor. */
  function Dismiss(s: AiState, hasEditor: bool): (r: (AiState, seq<string>))
    ensures r.0.suggestion.None? && r.0.position.None? && r.0.decoration == []
    ensures r.0.(suggestion := s.suggestion, position := s.position, decoration := s.decoration) == s
    ensures r.1 == (if hasEditor then s.decoration else [])
  {
    (s.(suggestion := None, position := None, decoration := []),
     if hasEditor && |s.decoration| > 0 then s.decoration else [])
  }

  /** Dismissing twice is dismissing once, and the second removes nothing. */
  lemma DismissIdempotent(s: AiState, e1: bool, e2: bool)
    ensures Dismiss(Dismiss(s, e1).0, e2) == (Dismiss(s, e1).0, [])
  {
  }

  // ---------------------------------------------------------------------
  // Accepting, as written and as intended
  // ---------------------------------------------------------------------

  /** `acceptSuggestion(editor, monaco)` as written: the callback's body only
      creates a function, so the state is returned unchanged. */
  function AcceptSuggestion(s: AiState, hasEditor: bool, hasMonaco: bool): (r: AiState)
    ensures r.suggestion == s.suggestion && r.position == s.position
    ensures r.isEnabled == s.isEnabled && r.isLoading == s.isLoading && r.decoration == s.decoration
  {
    s
  }

  /** A pending suggestion survives being accepted. */
  lemma AcceptLeavesSuggestionPending(s: AiState)
    requires s.suggestion.Some? && s.position.Some?
    ensures AcceptSuggestion(s, true, true).suggestion == s.suggestion
  {
  }

  /** The insertion the inner function asks the editor to make. */
  datatype Edit = Edit(line: int, column: int, text: string)

  /** The inner function of `acceptSuggestion`, run: with a suggestion, a
      position, an editor and the editor library it inserts the cleaned
      suggestion at the position and drops it from the state. */
  function AcceptIntended(s: AiState, hasEditor: bool, hasMonaco: bool): (r: (AiState, Option<Edit>))
    ensures !(Truthy(s.suggestion) && s.position.Some? && hasEditor && hasMonaco) ==> r == (s, None)
    ensures Truthy(s.suggestion) && s.position.Some? && hasEditor && hasMonaco ==>
      && r.1 == Some(Edit(s.position.value.line, s.position.value.column, StripLineNumbers(s.suggestion.value)))
      && r.0 == s.(suggestion := None, position := None, decoration := [])
  {
    if !Truthy(s.suggestion) || s.position.None? || !hasEditor || !hasMonaco then (s, None)
    else
      var p := s.position.value;
      (s.(suggestion := None, position := None, decoration := []),
       Some(Edit(p.line, p.column, StripLineNumbers(s.suggestion.value))))
  }

  /** Accepting consumes the suggestion: a second accept inserts nothing. */
  lemma AcceptIntendedOnce(s: AiState, e: bool, m: bool)
    ensures AcceptIntended(AcceptIntended(s, e, m).0, e, m).1.None?
  {
  }

  // ---------------------------------------------------------------------
  // Stripping leading text from each line
  // ---------------------------------------------------------------------

  /** The characters after which a multi-line `^` matches. */
  predicate IsLineTerminator(c: char)
  {
    c == '\n' || c == '\r' || c == '\U{2028}' || c == '\U{2029}'
  }

  predicate AtLineStart(s: string, i: nat)
    requires i <= |s|
  {
    i == 0 || IsLineTerminator(s[i - 1])
  }

  /** The end of the run of characters satisfying `p` that starts at `i`. */
  function SkipWhile(s: string, i: nat, p: char -> bool): (j: nat)
    requires i <= |s|
    ensures i <= j <= |s|
    ensures forall k :: i <= k < j ==> p(s[k])
    ensures j < |s| ==> !p(s[j])
    decreases |s| - i
  {
    if i < |s| && p(s[i]) then SkipWhile(s, i + 1, p) else i
  }

  /** The multi-line, global replacement of `^L+\s*` by nothing in `s[i..]`,
      for a leading character class `L`: at every
      line start holding an `L`, the run of `L`s and the white space after
      it are removed; the scan resumes after the removed text. */
  function StripFrom(s: string, i: nat, lead: char -> bool): (r: string)
    requires i <= |s|
    ensures |r| <= |s| - i
    decreases |s| - i
  {
    if i == |s| then ""
    else if AtLineStart(s, i) && lead(s[i]) then
      StripFrom(s, SkipWhile(s, SkipWhile(s, i, lead), IsSpace), lead)
    else [s[i]] + StripFrom(s, i + 1, lead)
  }

  predicate IsDigit(c: char)
  {
    '0' <= c <= '9'
  }

  predicate IsLetterD(c: char)
  {
    c == 'd'
  }

  /** The pattern as written, `^d+\s*`. */
  function StripAsWritten(s: string): string
  {
    StripFrom(s, 0, IsLetterD)
  }

  /** The pattern as intended, `^\d+\s*`: line numbers stripped from each line. */
  function StripLineNumbers(s: string): string
  {
    StripFrom(s, 0, IsDigit)
  }

  /** As written, the pattern eats the `d` of a line starting with `do` and
      leaves line numbers in place. */
  lemma StripAsWrittenCounterexample()
    ensures StripAsWritten("do {") == "o {"
    ensures StripAsWritten("1 x") == "1 x"
  {
    var s := "do {";
    assert SkipWhile(s, 0, IsLetterD) == 1;
    assert SkipWhile(s, 1, IsSpace) == 1;
    assert StripFrom(s, 1, IsLetterD) == "o {" by {
      assert StripFrom(s, 3, IsLetterD) == "{";
      assert StripFrom(s, 2, IsLetterD) == " {";
    }
    var t := "1 x";
    assert StripFrom(t, 0, IsLetterD) == "1 x" by {
      assert StripFrom(t, 2, IsLetterD) == "x";
      assert StripFrom(t, 1, IsLetterD) == " x";
    }
  }

  /** Text in which no line starts with a character of the class is left alone. */
  lemma {:induction false} StripFromIdentity(s: string, i: nat, lead: char -> bool)
    requires i <= |s|
    requires forall k :: i <= k < |s| && AtLineStart(s, k) ==> !lead(s[k])
    ensures StripFrom(s, i, lead) == s[i..]
    decreases |s| - i
  {
    if i < |s| {
      StripFromIdentity(s, i + 1, lead);
      assert s[i..] == [s[i]] + s[i + 1..];
    }
  }

  /** A single line `digits, white space, text` loses exactly its number. */
  lemma StripLineNumbersOneLine(digits: string, ws: string, text: string)
    requires |digits| > 0 && forall k :: 0 <= k < |digits| ==> IsDigit(digits[k])
    requires forall k :: 0 <= k < |ws| ==> IsSpace(ws[k])
    requires |text| > 0 ==> !IsSpace(text[0]) && !IsDigit(text[0])
    requires forall k :: 0 <= k < |text| ==> !IsLineTerminator(text[k])
    ensures StripLineNumbers(digits + ws + text) == text
  {
    var s := digits + ws + text;
    SkipWhileStops(s, 0, |digits|, IsDigit);
    SkipWhileStops(s, |digits|, |digits| + |ws|, IsSpace);
    var j := |digits| + |ws|;
    assert s[j..] == text;
    assert forall k :: j <= k < |s| ==> s[k] == text[k - j];
    forall k | j <= k < |s| && AtLineStart(s, k)
      ensures !IsDigit(s[k])
    {
      if k == j {
        assert s[k] == text[0];
      }
    }
    StripFromIdentity(s, j, IsDigit);
  }

  /** `SkipWhile` stops exactly at the first character outside the class. */
  lemma {:induction false} SkipWhileStops(s: string, i: nat, j: nat, p: char -> bool)
    requires i <= j <= |s|
    requires forall k :: i <= k < j ==> p(s[k])
    requires j < |s| ==> !p(s[j])
    ensures SkipWhile(s, i, p) == j
    decreases j - i
  {
    if i < j {
      SkipWhileStops(s, i + 1, j, p);
    }
  }

  // ---------------------------------------------------------------------
  // Reachable states
  // ---------------------------------------------------------------------

  datatype AiEvent =
    | ToggleEnabled
    | FetchStarted(suggestionType: string, editor: Option<Editor>)
    | FetchFinished(cursor: Position, response: Response)
    | Accepted(hasEditor: bool, hasMonaco: bool)
    | Rejected(hasEditor: bool)
    | Cleared(hasEditor: bool)

  /** One event.  With `corrected` set, accepting runs the intended
      `AcceptIntended`; otherwise it is `AcceptSuggestion` as written. */
  function ApplyAi(s: AiState, e: AiEvent, corrected: bool): AiState
  {
    match e
    case ToggleEnabled => Toggle(s)
    case FetchStarted(t, ed) => FetchStart(s, t, ed).0
    case FetchFinished(c, r) => FetchFinish(s, c, r)
    case Accepted(ed, m) => if corrected then AcceptIntended(s, ed, m).0 else AcceptSuggestion(s, ed, m)
    case Rejected(ed) => Dismiss(s, ed).0
    case Cleared(ed) => Dismiss(s, ed).0
  }

  function RunAi(s: AiState, events: seq<AiEvent>, corrected: bool): AiState
    decreases |events|
  {
    if |events| == 0 then s else RunAi(ApplyAi(s, events[0], corrected), events[1..], corrected)
  }

  /** Nothing ever stores a decoration, with accept as written or as
      intended, so the list stays empty and rejecting or clearing never
      removes any decoration from the editor. */
  lemma {:induction false} DecorationsStayEmpty(s: AiState, events: seq<AiEvent>, corrected: bool)
    requires s.decoration == []
    ensures RunAi(s, events, corrected).decoration == []
    ensures Dismiss(RunAi(s, events, corrected), true).1 == []
    decreases |events|
  {
    if |events| > 0 {
      DecorationsStayEmpty(ApplyAi(s, events[0], corrected), events[1..], corrected);
    }
  }
}

=== FILE: auth_callbacks.dfy ===
/**
 The authentication callbacks: the open-redirect guard, the copy rules of
 the `session` and `jwt` callbacks, and the boolean outcome of `signIn`.
 Database lookups and creations are abstract results passed in; the
 origin of an absolute URL is an uninterpreted function (`None` when the
 URL cannot be parsed, in which case the callback throws).
 */
module AuthCallbacks {
  import opened Common

  // ---------------------------------------------------------------------
  // redirect
  // ---------------------------------------------------------------------

  /** `redirect({ url, baseUrl })`. */
  function RedirectTarget(url: string, baseUrl: string, origin: string -> Option<string>): (r: Result<string>)
    ensures StartsWith(url, "/") ==> r == Ok(baseUrl + url)
    ensures !StartsWith(url, "/") && origin(url) == Some(baseUrl) ==> r == Ok(url)
    ensures !StartsWith(url, "/") && origin(url).Some? && origin(url) != Some(baseUrl) ==> r == Ok(baseUrl)
    ensures r.Err? <==> !StartsWith(url, "/") && origin(url).None?
  {
    if StartsWith(url, "/") then Ok(baseUrl + url)
    else match origin(url)
      case None => Err("Invalid URL")
      case Some(o) => if o == baseUrl then Ok(url) else Ok(baseUrl)
  }

  /** No open redirect: every target either starts with `baseUrl` or has
      `baseUrl` as its origin. */
  lemma RedirectStaysOnSite(url: string, baseUrl: string, origin: string -> Option<string>)
    requires RedirectTarget(url, baseUrl, origin).Ok?
    ensures var r := RedirectTarget(url, baseUrl, origin).value;
      StartsWith(r, baseUrl) || origin(r) == Some(baseUrl)
  {
  }

  // ---------------------------------------------------------------------
  // session and jwt
  // ---------------------------------------------------------------------

  /** The JWT claims the callbacks read and write; `sub` is the user id. */
  datatype Token = Token(sub: Option<string>, name: Option<string>, email: Option<string>, role: Option<string>)

  datatype SessionUser = SessionUser(id: Option<string>, name: Option<string>, email: Option<string>, role: Option<string>)

  datatype Session = Session(user: Option<SessionUser>, expires: string)

  /** `session({ session, token })`: copies the id and role from the token
      onto the session user when both exist. */
  function SessionCallback(session: Session, token: Token): (r: Session)
    ensures !(Truthy(token.sub) && session.user.Some?) ==> r == session
    ensures Truthy(token.sub) && session.user.Some? ==>
      r.user == Some(session.user.value.(id := token.sub, role := token.role)) && r.expires == session.expires
  {
    var s1 := if Truthy(token.sub) && session.user.Some? then session.(user := Some(session.user.value.(id := token.sub))) else session;
    if Truthy(token.sub) && s1.user.Some? then s1.(user := Some(s1.user.value.(role := token.role))) else s1
  }

  /** The stored user `getUserById` returns. */
  datatype StoredUser = StoredUser(id: string, name: Option<string>, email: string, role: string)

  /** `jwt({ token })`, given what `getUserById(token.sub)` found. */
  function JwtCallback(token: Token, stored: Option<StoredUser>): (r: Token)
    ensures !Truthy(token.sub) || stored.None? ==> r == token
    ensures Truthy(token.sub) && stored.Some? ==>
      r.sub == token.sub && r.name == stored.value.name
      && r.email == Some(stored.value.email) && r.role == Some(stored.value.role)
  {
    if !Truthy(token.sub) then token
    else match stored
      case None => token
      case Some(u) => token.(name := u.name, email := Some(u.email), role := Some(u.role))
  }

  /** The session the client sees after a refresh carries the stored user's id and role. */
  lemma SessionSeesStoredRole(session: Session, token: Token, stored: StoredUser)
    requires Truthy(token.sub) && session.user.Some?
    ensures var s := SessionCallback(session, JwtCallback(token, Some(stored)));
      s.user.value.id == token.sub && s.user.value.role == Some(stored.role)
  {
  }

  /** Refreshing a token twice from the same stored user is refreshing it once. */
  lemma JwtIdempotent(token: Token, stored: Option<StoredUser>)
    ensures JwtCallback(JwtCallback(token, stored), stored) == JwtCallback(token, stored)
  {
  }

  // ---------------------------------------------------------------------
  // signIn
  // ---------------------------------------------------------------------

  /** What the database lookups and creations inside `signIn` yield. */
  datatype SignInLookups = SignInLookups(existingUser: bool, userCreated: bool, existingAccount: bool)

  datatype DbWrite = CreateUserWithAccount | CreateAccount

  datatype SignInOutcome = SignInOutcome(allowed: bool, writes: seq<DbWrite>)

  /** `signIn({ user, account })`: refuse without a user or account; create
      the user (with its account) when unknown, refusing if that yields
      nothing; link a new account to a known user when missing. */
  function SignIn(hasUser: bool, hasAccount: bool, db: SignInLookups): (r: SignInOutcome)
    ensures !hasUser || !hasAccount ==> r == SignInOutcome(false, [])
    ensures hasUser && hasAccount ==> (r.allowed <==> db.existingUser || db.userCreated)
    ensures |r.writes| <= 1
    ensures CreateUserWithAccount in r.writes <==> hasUser && hasAccount && !db.existingUser
    ensures CreateAccount in r.writes <==> hasUser && hasAccount && db.existingUser && !db.existingAccount
  {
    if !hasUser || !hasAccount then SignInOutcome(false, [])
    else if !db.existingUser then
      SignInOutcome(db.userCreated, [CreateUserWithAccount])
    else if !db.existingAccount then SignInOutcome(true, [CreateAccount])
    else SignInOutcome(true, [])
  }
}

=== FILE: common.dfy ===
/**
 Shared vocabulary for the model: optional values, results, and the few
 string operations the web IDE relies on (`split`/`join` on a separator,
 `startsWith`, `includes`, `trim`).  JavaScript strings are modelled as
 `seq<char>`; no encoding or normalisation is involved.
 */
module Common {

  datatype Option<+T> = None | Some(value: T)

  /** An operation that either yields a value or throws an `Error` with a message. */
  datatype Result<+T> = Ok(value: T) | Err(message: string)

  /** JavaScript truthiness of an optional string: present and non-empty. */
  predicate Truthy(s: Option<string>)
  {
    s.Some? && s.value != ""
  }

  predicate StartsWith(s: string, prefix: string)
  {
    prefix <= s
  }

  predicate Contains(s: string, c: char)
  {
    c in s
  }

  /** `s.split(c)` for a one-character separator: never empty, and `""` splits to `[""]`. */
  function Split(s: string, c: char): (parts: seq<string>)
    ensures |parts| >= 1
  {
    if |s| == 0 then [""]
    else if s[0] == c then [""] + Split(s[1..], c)
    else
      var rest := Split(s[1..], c);
      [[s[0]] + rest[0]] + rest[1..]
  }

  /** No piece of a split holds the separator. */
  lemma {:induction false} SplitPiecesFree(s: string, c: char)
    ensures forall i :: 0 <= i < |Split(s, c)| ==> c !in Split(s, c)[i]
  {
    if |s| > 0 {
      SplitPiecesFree(s[1..], c);
      var rest := Split(s[1..], c);
      if s[0] != c {
        assert c !in [s[0]] + rest[0];
        assert forall i :: 1 <= i < |rest| ==> rest[i] == rest[1..][i - 1];
      }
    }
  }

  /** `parts.join(c)`. */
  function Join(parts: seq<string>, c: char): string
  {
    if |parts| == 0 then ""
    else if |parts| == 1 then parts[0]
    else parts[0] + [c] + Join(parts[1..], c)
  }

  /** Splitting and re-joining on the same separator gives back the original string. */
  lemma {:induction false} JoinSplit(s: string, c: char)
    ensures Join(Split(s, c), c) == s
  {
    if |s| == 0 {
    } else if s[0] == c {
      JoinSplit(s[1..], c);
      assert s == [c] + s[1..];
    } else {
      JoinSplit(s[1..], c);
      var rest := Split(s[1..], c);
      if |rest| == 1 {
        assert s == [s[0]] + s[1..];
      } else {
        assert Join(rest, c) == rest[0] + [c] + Join(rest[1..], c);
        assert s == [s[0]] + s[1..];
      }
    }
  }

  /** A string with no separator splits into itself alone. */
  lemma {:induction false} SplitNoSeparator(s: string, c: char)
    requires c !in s
    ensures Split(s, c) == [s]
  {
    if |s| > 0 {
      assert s[0] != c by { assert s[0] in s; }
      assert c !in s[1..] by {
        forall ch | ch in s[1..] ensures ch != c { }
      }
      SplitNoSeparator(s[1..], c);
      assert s == [s[0]] + s[1..];
    }
  }

  /** One step of `Split` on a string with a known first character. */
  lemma SplitCons(x: char, s: string, c: char)
    ensures x == c ==> Split([x] + s, c) == [""] + Split(s, c)
    ensures x != c ==> Split([x] + s, c) == [[x] + Split(s, c)[0]] + Split(s, c)[1..]
  {
    assert ([x] + s)[0] == x && ([x] + s)[1..] == s;
  }

  /** Splitting `a + [c] + b` splits `a` and `b` separately. */
  lemma {:induction false} SplitAppend(a: string, c: char, b: string)
    ensures Split(a + [c] + b, c) == Split(a, c) + Split(b, c)
    decreases |a|
  {
    if |a| == 0 {
      assert a + [c] + b == [c] + b;
      SplitCons(c, b, c);
    } else {
      SplitAppend(a[1..], c, b);
      assert a == [a[0]] + a[1..];
      SplitAppendStep(a[0], a[1..], c, b);
    }
  }

  /** The inductive step of `SplitAppend`: one more leading character. */
  lemma SplitAppendStep(x: char, a: string, c: char, b: string)
    requires Split(a + [c] + b, c) == Split(a, c) + Split(b, c)
    ensures Split([x] + a + [c] + b, c) == Split([x] + a, c) + Split(b, c)
  {
    assert [x] + a + [c] + b == [x] + (a + [c] + b);
    if x == c {
      SplitAppendSeparator(a, c, b);
    } else {
      SplitAppendOther(x, a, c, b);
    }
  }

  lemma SplitAppendSeparator(a: string, c: char, b: string)
    requires Split(a + [c] + b, c) == Split(a, c) + Split(b, c)
    ensures Split([c] + (a + [c] + b), c) == Split([c] + a, c) + Split(b, c)
  {
    SplitCons(c, a + [c] + b, c);
    SplitCons(c, a, c);
    assert [""] + (Split(a, c) + Split(b, c)) == ([""] + Split(a, c)) + Split(b, c);
  }

  lemma SplitAppendOther(x: char, a: string, c: char, b: string)
    requires x != c
    requires Split(a + [c] + b, c) == Split(a, c) + Split(b, c)
    ensures Split([x] + (a + [c] + b), c) == Split([x] + a, c) + Split(b, c)
  {
    SplitCons(x, a + [c] + b, c);
    SplitCons(x, a, c);
    ExtendFirstPiece(x, Split(a, c), Split(b, c));
  }

  /** Extending the first piece of `r` commutes with appending `sb`. */
  lemma ExtendFirstPiece(x: char, r: seq<string>, sb: seq<string>)
    requires |r| >= 1
    ensures [[x] + (r + sb)[0]] + (r + sb)[1..] == ([[x] + r[0]] + r[1..]) + sb
  {
    assert (r + sb)[0] == r[0];
    assert (r + sb)[1..] == r[1..] + sb;
  }

  /** Joining a non-empty list one element longer adds a separator and that element. */
  lemma {:induction false} JoinSnoc(parts: seq<string>, x: string, c: char)
    requires |parts| >= 1
    ensures Join(parts + [x], c) == Join(parts, c) + [c] + x
  {
    if |parts| == 1 {
      assert parts + [x] == [parts[0], x];
    } else {
      JoinSnoc(parts[1..], x, c);
      assert (parts + [x])[1..] == parts[1..] + [x];
    }
  }

  /** A string with a separator is the join of all pieces but the last,
      the separator, and the last piece. */
  lemma SplitLast(s: string, c: char)
    requires |Split(s, c)| >= 2
    ensures var parts := Split(s, c);
      s == Join(parts[..|parts| - 1], c) + [c] + parts[|parts| - 1]
  {
    var parts := Split(s, c);
    var n := |parts|;
    JoinSplit(s, c);
    assert parts == parts[..n - 1] + [parts[n - 1]];
    JoinSnoc(parts[..n - 1], parts[n - 1], c);
  }

  /** Joining separator-free parts and splitting again gives back the parts. */
  lemma {:induction false} SplitJoin(parts: seq<string>, c: char)
    requires |parts| >= 1
    requires forall i :: 0 <= i < |parts| ==> c !in parts[i]
    ensures Split(Join(parts, c), c) == parts
  {
    if |parts| == 1 {
      SplitNoSeparator(parts[0], c);
    } else {
      SplitJoin(parts[1..], c);
      SplitNoSeparator(parts[0], c);
      SplitAppend(parts[0], c, Join(parts[1..], c));
      assert parts == [parts[0]] + parts[1..];
    }
  }

  /** Everything before the first `c` — `s.split(c)[0]`. */
  function BeforeFirst(s: string, c: char): (r: string)
    ensures r <= s
    ensures c !in r
    ensures c in s ==> |r| < |s| && s[|r|] == c
    ensures c !in s ==> r == s
  {
    if |s| == 0 then ""
    else if s[0] == c then ""
    else [s[0]] + BeforeFirst(s[1..], c)
  }

  /** `BeforeFirst` is the first piece that `Split` produces. */
  lemma {:induction false} BeforeFirstIsFirstPiece(s: string, c: char)
    ensures BeforeFirst(s, c) == Split(s, c)[0]
  {
    if |s| > 0 && s[0] != c {
      BeforeFirstIsFirstPiece(s[1..], c);
    }
  }

  /** What follows after the text `u` is irrelevant once `u` already holds a `c`, and is cut off at a `c`. */
  lemma {:induction false} BeforeFirstAppend(u: string, c: char, rest: string)
    ensures c in u ==> BeforeFirst(u + rest, c) == BeforeFirst(u, c)
    ensures c !in u ==> BeforeFirst(u + [c] + rest, c) == u
  {
    if |u| > 0 {
      BeforeFirstAppend(u[1..], c, rest);
      assert (u + rest)[1..] == u[1..] + rest;
      assert (u + [c] + rest)[1..] == u[1..] + [c] + rest;
      assert u == [u[0]] + u[1..];
    } else {
      assert u + [c] + rest == [c] + rest;
    }
  }

  predicate IsSpace(ch: char)
  {
    ch == ' ' || ch == '\t' || ch == '\n' || ch == '\r' || ch == '\U{B}' || ch == '\U{C}'
  }

  function TrimStart(s: string): (r: string)
    ensures |r| <= |s| && r == s[|s| - |r|..]
    ensures |r| > 0 ==> !IsSpace(r[0])
    ensures forall i :: 0 <= i < |s| - |r| ==> IsSpace(s[i])
  {
    if |s| > 0 && IsSpace(s[0]) then TrimStart(s[1..]) else s
  }

  function TrimEnd(s: string): (r: string)
    ensures |r| <= |s| && r == s[..|r|]
    ensures |r| > 0 ==> !IsSpace(r[|r| - 1])
    ensures forall i :: |r| <= i < |s| ==> IsSpace(s[i])
  {
    if |s| > 0 && IsSpace(s[|s| - 1]) then TrimEnd(s[..|s| - 1]) else s
  }

  /** `s.trim()`: a contiguous slice of `s` with no white space at either end. */
  function Trim(s: string): (r: string)
    ensures exists i, j :: 0 <= i <= j <= |s| && r == s[i..j]
    ensures |r| > 0 ==> !IsSpace(r[0]) && !IsSpace(r[|r| - 1])
  {
    var t := TrimStart(s);
    var u := TrimEnd(t);
    assert u == s[|s| - |t|..|s| - |t| + |u|];
    u
  }

  /** Trimming twice is trimming once. */
  lemma TrimIdempotent(s: string)
    ensures Trim(Trim(s)) == Trim(s)
  {
    var r := Trim(s);
    if |r| > 0 {
      assert TrimStart(r) == r;
      assert TrimEnd(r) == r;
    }
  }

  /** Decimal text of an integer, as JavaScript's template literals print it. */
  function IntToString(n: int): (r: string)
    ensures |r| > 0
  {
    if n < 0 then "-" + NatToString(-n) else NatToString(n)
  }

  function NatToString(n: nat): (r: string)
    ensures |r| > 0
    ensures forall i :: 0 <= i < |r| ==> '0' <= r[i] <= '9'
  {
    if n < 10 then [DigitChar(n)] else NatToString(n / 10) + [DigitChar(n % 10)]
  }

  function DigitChar(d: nat): (ch: char)
    requires d < 10
    ensures '0' <= ch <= '9'
  {
    ['0', '1', '2', '3', '4', '5', '6', '7', '8', '9'][d]
  }
}

=== FILE: dashboard_listing.dfy ===
/**
 The dashboard layout's sidebar listing: every playground of the user
 becomes an entry with its id, title, starred flag and icon name.
 */
module DashboardListing {
  import opened Common

  datatype StarMark = StarMark(isMarked: bool)

  /** A playground as the dashboard query returns it. */
  datatype PlaygroundRow = PlaygroundRow(id: string, title: string, template: string, starkMark: seq<StarMark>)

  datatype SidebarEntry = SidebarEntry(id: string, name: string, starred: bool, icon: string)

  /** The icon names per template key. */
  const IconMap: map<string, string> := map[
    "REACT" := "Zap",
    "NEXTJS" := "Lightbulb",
    "EXPRESS" := "Database",
    "HONO" := "FlameIcon",
    "ANGULAR" := "Terminal",
    "VUE" := "Compass"]

  const DefaultIcon := "Code2"

  /** `iconMap[template] || "Code2"`. */
  function IconFor(template: string): (icon: string)
    ensures template in IconMap ==> icon == IconMap[template]
    ensures template !in IconMap ==> icon == DefaultIcon
    ensures icon in IconMap.Values || icon == DefaultIcon
  {
    if template in IconMap then IconMap[template] else DefaultIcon
  }

  /** `pg.starkMark?.[0]?.isMarked || false`. */
  function Starred(marks: seq<StarMark>): (b: bool)
    ensures b <==> |marks| > 0 && marks[0].isMarked
  {
    |marks| > 0 && marks[0].isMarked
  }

  function Entry(pg: PlaygroundRow): SidebarEntry
  {
    SidebarEntry(pg.id, pg.title, Starred(pg.starkMark), IconFor(pg.template))
  }

  /** `formattedPlayground`: one entry per playground, in order; no data gives no entries. */
  function Format(data: Option<seq<PlaygroundRow>>): (r: seq<SidebarEntry>)
    ensures data.None? ==> r == []
    ensures data.Some? ==> |r| == |data.value|
    ensures data.Some? ==> forall i :: 0 <= i < |r| ==>
      r[i].id == data.value[i].id && r[i].name == data.value[i].title
      && r[i].starred == Starred(data.value[i].starkMark)
      && r[i].icon == IconFor(data.value[i].template)
  {
    match data
    case None => []
    case Some(rows) => FormatRows(rows)
  }

  function FormatRows(rows: seq<PlaygroundRow>): (r: seq<SidebarEntry>)
    ensures |r| == |rows|
    ensures forall i :: 0 <= i < |rows| ==> r[i] == Entry(rows[i])
  {
    if |rows| == 0 then [] else [Entry(rows[0])] + FormatRows(rows[1..])
  }

  /** Formatting distributes over concatenation, so the order of the input is kept. */
  lemma {:induction false} FormatRowsAppend(a: seq<PlaygroundRow>, b: seq<PlaygroundRow>)
    ensures FormatRows(a + b) == FormatRows(a) + FormatRows(b)
  {
    var l, r := FormatRows(a + b), FormatRows(a) + FormatRows(b);
    forall i | 0 <= i < |l|
      ensures l[i] == r[i]
    {
      if i < |a| {
        assert (a + b)[i] == a[i];
      } else {
        assert (a + b)[i] == b[i - |a|];
      }
    }
  }

  /** The template keys a playground can have; the map's keys `REACT` and
      `EXPRESS` do not match `REACTJS` and `EXPRESSJS`, which therefore get
      the default icon. */
  lemma IconsOfTemplateKeys()
    ensures IconFor("REACTJS") == DefaultIcon
    ensures IconFor("EXPRESSJS") == DefaultIcon
    ensures IconFor("NEXTJS") == "Lightbulb"
    ensures IconFor("VUE") == "Compass"
    ensures IconFor("HONO") == "FlameIcon"
    ensures IconFor("ANGULAR") == "Terminal"
  {
    assert "REACTJS" !in IconMap;
    assert "EXPRESSJS" !in IconMap;
  }
}

=== FILE: playground_loader.dfy ===
/**
 The playground hook: loading a playground's template (stored content
 first, else the starter template fetched from the template endpoint)
 and saving an edited template.  The database read, the JSON parser, the
 fetch and the persistence call are outcome parameters.
 */
module PlaygroundLoader {
  import opened Common
  import opened TemplateTree

  /** `pg.templateFiles[0].content`: missing, a string, or some other JSON value. */
  datatype StoredContent = NoContent | StringContent(text: string) | OtherContent

  datatype PlaygroundRecord = PlaygroundRecord(title: string, description: Option<string>, stored: StoredContent)

  datatype PlaygroundState = PlaygroundState(
    playgroundData: Option<PlaygroundRecord>,
    templateData: Option<Item>,
    isLoading: bool,
    error: Option<string>)

  const InitialPlayground := PlaygroundState(None, None, true, None)

  const LoadFailed := "Failed to load playground data"

  /** `templateResponse.templateJson`: falsy, an array of items, or any other value. */
  datatype TemplateJson = Falsy | ArrayJson(items: seq<Item>) | OtherJson(value: Item)

  /** How the template request ended: it threw (network or body parsing), or
      answered with a non-OK status, or with an OK body. */
  datatype FetchOutcome = FetchThrew | NotOk(status: int) | OkBody(templateJson: TemplateJson)

  /** The template a fetched answer becomes: an array is wrapped in a `Root`
      folder, another truthy value is used as it is, a falsy one becomes an
      empty `Root` folder. */
  function Normalize(j: TemplateJson): (t: Item)
    ensures j.ArrayJson? ==> t == Folder("Root", j.items) && IsFolder(t) && t.isArray && t.items == j.items
    ensures j.Falsy? ==> t == Folder("Root", []) && IsFolder(t) && t.isArray && t.items == []
    ensures !j.OtherJson? ==> t.folderName == Some("Root") && t.filename.None? && t.fileExtension.None? && t.content.None?
    ensures j.OtherJson? ==> t == j.value
  {
    match j
    case ArrayJson(items) => Folder("Root", items)
    case OtherJson(v) => v
    case Falsy => Folder("Root", [])
  }

  /** The wrapping `Root` folder adds nothing to the files written: they
      are the array's own entries. */
  lemma NormalizedArrayFlattens(items: seq<Item>)
    ensures Flatten(Normalize(ArrayJson(items))) == FlattenItems(items, "")
    ensures Flatten(Normalize(Falsy)) == []
  {
  }

  /** The result of one `loadPlayground()`: the state after it and whether
      the template endpoint was asked. */
  datatype LoadRun = LoadRun(state: PlaygroundState, fetched: bool)

  /** `loadPlayground()` for playground `id`: `pg` is what the database read
      returned, `parse` is `JSON.parse` (`None` when it throws) and `fetch`
      the template request's outcome. */
  function Load(s: PlaygroundState, id: string, pg: Option<PlaygroundRecord>,
                parse: string -> Option<Item>, fetch: FetchOutcome): (r: LoadRun)
    ensures id == "" ==> r == LoadRun(s, false)
    ensures id != "" ==> !r.state.isLoading && r.state.playgroundData == pg
    ensures id != "" && pg.Some? && pg.value.stored.StringContent? ==>
      !r.fetched
      && (parse(pg.value.stored.text).Some? ==>
            r.state.templateData == parse(pg.value.stored.text) && r.state.error.None?)
    ensures id != "" && !(pg.Some? && pg.value.stored.StringContent?) ==>
      r.fetched
      && (fetch.OkBody? ==> r.state.templateData == Some(Normalize(fetch.templateJson)) && r.state.error.None?)
    ensures id != "" && pg.Some? && pg.value.stored.StringContent? && parse(pg.value.stored.text).None? ==>
      r.state == s.(playgroundData := pg, error := Some(LoadFailed), isLoading := false)
    ensures id != "" && r.state.error.Some? ==> r.state.error == Some(LoadFailed) && r.state.templateData == s.templateData
    ensures id != "" && r.state.error.None? ==> r.state.templateData.Some?
  {
    if id == "" then LoadRun(s, false)
    else
      var s1 := s.(isLoading := true, error := None, playgroundData := pg);
      var failed := s1.(error := Some(LoadFailed), isLoading := false);
      if pg.Some? && pg.value.stored.StringContent? then
        match parse(pg.value.stored.text)
        case None => LoadRun(failed, false)
        case Some(t) => LoadRun(s1.(templateData := Some(t), isLoading := false), false)
      else
        match fetch
        case OkBody(j) => LoadRun(s1.(templateData := Some(Normalize(j)), isLoading := false), true)
        case _ => LoadRun(failed, true)
  }

  /** Stored string content beats the template endpoint, whatever it would answer. */
  lemma StoredContentWins(s: PlaygroundState, id: string, rec: PlaygroundRecord,
                          parse: string -> Option<Item>, f1: FetchOutcome, f2: FetchOutcome)
    requires rec.stored.StringContent?
    ensures Load(s, id, Some(rec), parse, f1) == Load(s, id, Some(rec), parse, f2)
  {
  }

  /** A non-OK answer or a thrown error records the load error and keeps the previous template. */
  lemma FetchFailureKeepsTemplate(s: PlaygroundState, id: string, pg: Option<PlaygroundRecord>,
                                  parse: string -> Option<Item>, fetch: FetchOutcome)
    requires id != "" && !(pg.Some? && pg.value.stored.StringContent?)
    requires !fetch.OkBody?
    ensures Load(s, id, pg, parse, fetch).state == s.(playgroundData := pg, error := Some(LoadFailed), isLoading := false)
  {
  }

  /** `saveTemplateData(data)`: the template is committed only after the
      persistence call returns; a thrown error is rethrown and nothing
      changes.  Returns the new state and the rethrown message. */
  function Save(s: PlaygroundState, data: Item, persistError: Option<string>): (r: (PlaygroundState, Option<string>))
    ensures persistError.None? ==> r.0 == s.(templateData := Some(data)) && r.1.None?
    ensures persistError.Some? ==> r.0 == s && r.1 == persistError
  {
    if persistError.None? then (s.(templateData := Some(data)), None) else (s, persistError)
  }

  /** Saving the same template twice leaves the state as saving it once. */
  lemma SaveIdempotent(s: PlaygroundState, data: Item)
    ensures Save(Save(s, data, None).0, data, None).0 == Save(s, data, None).0
  {
  }
}

=== FILE: preview_controller.dfy ===
/**
 The preview component's bootstrap controller: the state it keeps (current
 step, five loading flags, setup-complete / in-progress guards, setup
 error, preview URL, last template snapshot) and the step functions that
 act on it — one setup attempt, the server-ready listener, the forced
 re-setup and the template-change refresh.

 Every effect the component performs on the sandbox (mount, spawn, exit
 codes, reading `package.json`) is an explicit outcome parameter.  The
 manifest is represented by the set of its script names whose value is
 truthy; template snapshots are their JSON texts; `Date.now()` arrives as
 a token string.
 */
module PreviewController {
  import opened Common

  datatype LoadingFlags = LoadingFlags(transforming: bool, mounting: bool, installing: bool, starting: bool, ready: bool)

  const AllOff := LoadingFlags(false, false, false, false, false)

  datatype PreviewState = PreviewState(
    previewUrl: string,
    flags: LoadingFlags,
    currentStep: nat,
    setupError: Option<string>,
    isSetupComplete: bool,
    isSetupInProgress: bool,
    lastJson: string)

  /** `JSON.stringify(null)`: the snapshot text before any template was seen. */
  const NullJson := "null"

  const Initial := PreviewState("", AllOff, 0, None, false, false, NullJson)

  // ---------------------------------------------------------------------
  // Choosing the start command
  // ---------------------------------------------------------------------

  /** What `startServer` decides from the manifest's scripts: whether
      `npm run build` runs first and which `npm` arguments start the server. */
  datatype StartPlan = StartPlan(build: bool, args: seq<string>) | NoStartCommand

  const RunDev := ["run", "dev"]
  const RunStart := ["run", "start"]

  function ChooseStart(scripts: set<string>): (p: StartPlan)
    ensures "dev" in scripts ==> p == StartPlan(false, RunDev)
    ensures "dev" !in scripts && "start" in scripts ==> p == StartPlan("build" in scripts, RunStart)
    ensures "dev" !in scripts && "start" !in scripts ==> p == NoStartCommand
  {
    var hasDev := "dev" in scripts;
    var hasStart := "start" in scripts;
    var build := !hasDev && hasStart && "build" in scripts;
    if hasDev then StartPlan(build, RunDev)
    else if hasStart then StartPlan(build, RunStart)
    else NoStartCommand
  }

  /** Only two argument lists are ever chosen, and a build only ever precedes `run start`. */
  lemma ChooseStartShapes(scripts: set<string>)
    ensures ChooseStart(scripts).StartPlan? ==> ChooseStart(scripts).args in {RunDev, RunStart}
    ensures ChooseStart(scripts).StartPlan? && ChooseStart(scripts).build ==> ChooseStart(scripts).args == RunStart
    ensures ChooseStart(scripts).NoStartCommand? <==> "dev" !in scripts && "start" !in scripts
  {
  }

  // ---------------------------------------------------------------------
  // One setup attempt
  // ---------------------------------------------------------------------

  /** A spawned process: its command and arguments. */
  datatype Command = Command(cmd: string, args: seq<string>)

  const CleanCmd := Command("bash", ["-lc", "rm -rf node_modules package-lock.json 2>/dev/null || true"])
  const InstallCmd := Command("npm", ["install"])
  const BuildCmd := Command("npm", ["run", "build"])

  function StartCmd(args: seq<string>): Command
  {
    Command("npm", args)
  }

  /** A process spawned and awaited: its exit code, or the error the spawn threw. */
  datatype SpawnResult = Exited(code: int) | SpawnThrew(message: string)

  /** Reading and parsing `package.json` from the mounted filesystem.
      `EmptyText` is the empty file, which is parsed as `"{}"`; `Parsed`
      carries the names of the truthy scripts (none when the document or
      its `scripts` is missing or null). */
  datatype ManifestRead = ReadFailed(message: string) | EmptyText | Unparseable(message: string) | Parsed(scripts: set<string>)

  /** The outcomes of every effect one attempt may perform. */
  datatype Outcomes = Outcomes(
    mount: Option<string>,
    clean: SpawnResult,
    install: SpawnResult,
    manifest: ManifestRead,
    build: SpawnResult,
    start: Option<string>)

  /** Why an attempt failed. */
  datatype Failure = Thrown(message: string) | InstallFailed(code: int) | BuildFailed(code: int) | NoStartScript

  function Message(f: Failure): string
  {
    match f
    case Thrown(m) => m
    case InstallFailed(c) => "Failed to install dependencies. Exit code: " + IntToString(c)
    case BuildFailed(c) => "Build failed with exit code " + IntToString(c)
    case NoStartScript => "No start or dev script found in package.json. Add a 'dev' or 'start' script."
  }

  /** The result of one attempt: the state afterwards, the step numbers it
      went through, the commands it spawned (in order) and its failure. */
  datatype SetupRun = SetupRun(state: PreviewState, steps: seq<nat>, spawned: seq<Command>, failure: Option<Failure>)

  /** The catch block: record the message, leave the in-progress state and
      switch every loading flag off; the step number stays where it was. */
  function Fail(s: PreviewState, steps: seq<nat>, spawned: seq<Command>, f: Failure): (r: SetupRun)
  {
    SetupRun(s.(setupError := Some(Message(f)), isSetupInProgress := false, flags := AllOff), steps, spawned, Some(f))
  }

  /** The commands a successful attempt spawns for a given plan, in order. */
  function PlannedCommands(p: StartPlan): seq<Command>
  {
    [CleanCmd, InstallCmd]
    + (if p.StartPlan? && p.build then [BuildCmd] else [])
    + (if p.StartPlan? then [StartCmd(p.args)] else [])
  }

  function ScriptsOf(m: ManifestRead): set<string>
    requires m.EmptyText? || m.Parsed?
  {
    if m.Parsed? then m.scripts else {}
  }

  /** `startServer(pkgJsonRaw)` after the manifest was read and parsed; `s`
      is the state at step 4, `steps` the steps gone through and `spawned`
      the commands spawned so far.  It succeeds iff there is a start
      command, its build (if planned) exits with 0, and the start spawn
      does not throw; then it has spawned the rest of the plan. */
  function StartServer(s: PreviewState, steps: seq<nat>, scripts: set<string>, o: Outcomes, spawned: seq<Command>): (r: SetupRun)
    ensures r.steps == steps
    ensures r.failure.None? <==>
      ChooseStart(scripts).StartPlan? && (ChooseStart(scripts).build ==> o.build == Exited(0)) && o.start.None?
    ensures r.failure.None? ==> r.state == s && r.spawned == spawned + PlannedCommands(ChooseStart(scripts))[2..]
    ensures ChooseStart(scripts).NoStartCommand? ==> r.failure == Some(NoStartScript) && r.spawned == spawned
    ensures ChooseStart(scripts).StartPlan? && ChooseStart(scripts).build && o.build.SpawnThrew? ==>
      r.failure == Some(Thrown(o.build.message)) && r.spawned == spawned + [BuildCmd]
    ensures ChooseStart(scripts).StartPlan? && (ChooseStart(scripts).build ==> o.build == Exited(0)) && o.start.Some? ==>
      r.failure == Some(Thrown(o.start.value)) && r.spawned == spawned + PlannedCommands(ChooseStart(scripts))[2..]
    ensures r.failure.Some? ==>
      r.state == s.(setupError := Some(Message(r.failure.value)), isSetupInProgress := false, flags := AllOff)
  {
    var plan := ChooseStart(scripts);
    if plan.StartPlan? && plan.build && o.build.SpawnThrew? then
      Fail(s, steps, spawned + [BuildCmd], Thrown(o.build.message))
    else if plan.StartPlan? && plan.build && o.build.code != 0 then
      Fail(s, steps, spawned + [BuildCmd], BuildFailed(o.build.code))
    else if plan.NoStartCommand? then
      Fail(s, steps, spawned, NoStartScript)
    else
      var spawned' := spawned + (if plan.build then [BuildCmd] else []) + [StartCmd(plan.args)];
      if o.start.Some? then Fail(s, steps, spawned', Thrown(o.start.value))
      else SetupRun(s, steps, spawned', None)
  }

  predicate Guarded(s: PreviewState, hasInstance: bool)
  {
    !hasInstance || s.isSetupComplete || s.isSetupInProgress
  }

  /** Mount and install succeeded and `package.json` was read and parsed. */
  predicate ManifestOk(o: Outcomes)
  {
    o.mount.None? && o.install == Exited(0) && (o.manifest.EmptyText? || o.manifest.Parsed?)
  }

  /** `setupContainer()`: returns at once unless there is an instance and
      setup is neither complete nor in progress; otherwise runs steps 1-4,
      failing fast at the first error.  The step trace records the
      `currentStep` of each intermediate state. */
  function AttemptSetup(s: PreviewState, hasInstance: bool, o: Outcomes): (r: SetupRun)
    ensures !hasInstance || s.isSetupComplete || s.isSetupInProgress ==> r == SetupRun(s, [], [], None)
    ensures !(!hasInstance || s.isSetupComplete || s.isSetupInProgress) ==>
      2 <= |r.steps| && r.state.currentStep == r.steps[|r.steps| - 1]
    ensures r.failure.Some? ==>
      r.state.setupError == Some(Message(r.failure.value)) && !r.state.isSetupInProgress && r.state.flags == AllOff
    ensures hasInstance && !s.isSetupComplete && !s.isSetupInProgress && r.failure.None? ==>
      r.state.isSetupInProgress && r.state.currentStep == 4 && r.state.setupError.None?
    ensures r.state.previewUrl == s.previewUrl && r.state.lastJson == s.lastJson
    ensures r.state.isSetupComplete == s.isSetupComplete
    // Every error thrown along the way ends the attempt with its own message.
    ensures hasInstance && !s.isSetupComplete && !s.isSetupInProgress && o.mount.Some? ==>
      r.failure == Some(Thrown(o.mount.value)) && r.steps == [1, 2] && r.spawned == []
    ensures hasInstance && !s.isSetupComplete && !s.isSetupInProgress && o.mount.None? && o.install.SpawnThrew? ==>
      r.failure == Some(Thrown(o.install.message)) && r.steps == [1, 2, 3] && r.spawned == [CleanCmd, InstallCmd]
    ensures hasInstance && !s.isSetupComplete && !s.isSetupInProgress && o.mount.None? && o.install == Exited(0)
            && (o.manifest.ReadFailed? || o.manifest.Unparseable?) ==>
      r.failure == Some(Thrown(o.manifest.message)) && r.steps == [1, 2, 3, 4] && r.spawned == [CleanCmd, InstallCmd]
    // Once the manifest is read, the outcome is the one `StartServer` computes from the real spawns.
    ensures !Guarded(s, hasInstance) ==>
      (r.failure.None? <==>
         ManifestOk(o) && ChooseStart(ScriptsOf(o.manifest)).StartPlan?
         && (ChooseStart(ScriptsOf(o.manifest)).build ==> o.build == Exited(0)) && o.start.None?)
    ensures !Guarded(s, hasInstance) && ManifestOk(o) && ChooseStart(ScriptsOf(o.manifest)).StartPlan?
            && ChooseStart(ScriptsOf(o.manifest)).build && o.build.SpawnThrew? ==>
      r.failure == Some(Thrown(o.build.message))
    ensures !Guarded(s, hasInstance) && ManifestOk(o) && ChooseStart(ScriptsOf(o.manifest)).StartPlan?
            && (ChooseStart(ScriptsOf(o.manifest)).build ==> o.build == Exited(0)) && o.start.Some? ==>
      r.failure == Some(Thrown(o.start.value))
  {
    if !hasInstance || s.isSetupComplete || s.isSetupInProgress then SetupRun(s, [], [], None)
    else
      var s0 := s.(isSetupInProgress := true, setupError := None);
      var s1 := s0.(flags := s0.flags.(transforming := true), currentStep := 1);
      var s2 := s1.(flags := s1.flags.(transforming := false, mounting := true), currentStep := 2);
      if o.mount.Some? then Fail(s2, [s1.currentStep, s2.currentStep], [], Thrown(o.mount.value))
      else
        var s3 := s2.(flags := s2.flags.(mounting := false, installing := true), currentStep := 3);
        var spawned := [CleanCmd, InstallCmd];
        var steps3 := [s1.currentStep, s2.currentStep, s3.currentStep];
        match o.install
        case SpawnThrew(m) => Fail(s3, steps3, spawned, Thrown(m))
        case Exited(code) =>
          if code != 0 then Fail(s3, steps3, spawned, InstallFailed(code))
          else
            var s4 := s3.(flags := s3.flags.(installing := false, starting := true), currentStep := 4);
            var steps4 := steps3 + [s4.currentStep];
            match o.manifest
            case ReadFailed(m) => Fail(s4, steps4, spawned, Thrown(m))
            case Unparseable(m) => Fail(s4, steps4, spawned, Thrown(m))
            case EmptyText | Parsed(_) => StartServer(s4, steps4, ScriptsOf(o.manifest), o, spawned)
  }

  /** The re-entry guard: a blocked attempt changes nothing and spawns nothing. */
  lemma SetupGuard(s: PreviewState, hasInstance: bool, o: Outcomes)
    ensures Guarded(s, hasInstance) <==> AttemptSetup(s, hasInstance, o).steps == []
    ensures Guarded(s, hasInstance) ==> AttemptSetup(s, hasInstance, o) == SetupRun(s, [], [], None)
  {
  }

  /** An admitted attempt walks the steps in order 1, 2, 3, 4 without
      skipping, ends on the last step it reached, spawns a prefix of the
      commands its plan calls for, and never touches the preview URL, the
      snapshot or the completion flag. */
  lemma SetupPhasesOrdered(s: PreviewState, o: Outcomes)
    requires !Guarded(s, true)
    ensures var r := AttemptSetup(s, true, o);
      && 2 <= |r.steps| && r.steps <= [1, 2, 3, 4]
      && r.state.currentStep == r.steps[|r.steps| - 1]
      && r.state.previewUrl == s.previewUrl
      && r.state.lastJson == s.lastJson
      && r.state.isSetupComplete == s.isSetupComplete
  {
  }

  /** Failure records its message, leaves the in-progress state and turns
      every loading flag off. */
  lemma SetupFailureState(s: PreviewState, o: Outcomes)
    requires !Guarded(s, true)
    requires AttemptSetup(s, true, o).failure.Some?
    ensures var r := AttemptSetup(s, true, o);
      && r.state.setupError == Some(Message(r.failure.value))
      && !r.state.isSetupInProgress
      && r.state.flags == AllOff
  {
  }

  /** Success leaves the attempt in progress at step 4 with only the
      `starting` flag on, waiting for a server-ready event. */
  lemma SetupSuccessState(s: PreviewState, o: Outcomes)
    requires !Guarded(s, true)
    requires AttemptSetup(s, true, o).failure.None?
    ensures var r := AttemptSetup(s, true, o);
      && r.state.isSetupInProgress && !r.state.isSetupComplete
      && r.state.currentStep == 4
      && r.state.setupError.None?
      && r.state.flags == s.flags.(transforming := false, mounting := false, installing := false, starting := true)
      && |r.spawned| >= 3 && r.spawned[|r.spawned| - 1].args in {RunDev, RunStart}
      && (o.manifest.EmptyText? || o.manifest.Parsed?)
      && ChooseStart(ScriptsOf(o.manifest)).StartPlan?
      && r.spawned[|r.spawned| - 1] == StartCmd(ChooseStart(ScriptsOf(o.manifest)).args)
  {
  }

  /** With a truthy `dev` script the server starts with `npm run dev` and no
      build is spawned, whatever `build` holds; the attempt fails only when
      that spawn throws, with its message. */
  lemma DevScriptWins(s: PreviewState, o: Outcomes)
    requires !Guarded(s, true)
    requires o.mount.None? && o.install == Exited(0)
    requires o.manifest.Parsed? && "dev" in o.manifest.scripts
    ensures AttemptSetup(s, true, o).spawned == [CleanCmd, InstallCmd, StartCmd(RunDev)]
    ensures o.start.None? ==> AttemptSetup(s, true, o).failure.None?
    ensures o.start.Some? ==> AttemptSetup(s, true, o).failure == Some(Thrown(o.start.value))
  {
  }

  /** Without `dev` but with `start`, `npm run build` runs first exactly when
      a `build` script exists, and the server starts with `npm run start`. */
  lemma StartScriptWithOptionalBuild(s: PreviewState, o: Outcomes)
    requires !Guarded(s, true)
    requires o.mount.None? && o.install == Exited(0) && o.start.None? && o.build == Exited(0)
    requires o.manifest.Parsed? && "dev" !in o.manifest.scripts && "start" in o.manifest.scripts
    ensures "build" in o.manifest.scripts ==>
      AttemptSetup(s, true, o).spawned == [CleanCmd, InstallCmd, BuildCmd, StartCmd(RunStart)]
    ensures "build" !in o.manifest.scripts ==>
      AttemptSetup(s, true, o).spawned == [CleanCmd, InstallCmd, StartCmd(RunStart)]
    ensures AttemptSetup(s, true, o).failure.None?
  {
  }

  /** With neither `dev` nor `start` (an empty manifest text included) the
      attempt fails with the no-start-script error and nothing but clean
      and install is spawned. */
  lemma NoStartScriptFails(s: PreviewState, o: Outcomes)
    requires !Guarded(s, true)
    requires o.mount.None? && o.install == Exited(0)
    requires o.manifest.EmptyText? || (o.manifest.Parsed? && "dev" !in o.manifest.scripts && "start" !in o.manifest.scripts)
    ensures AttemptSetup(s, true, o).failure == Some(NoStartScript)
    ensures AttemptSetup(s, true, o).spawned == [CleanCmd, InstallCmd]
    ensures AttemptSetup(s, true, o).state.setupError ==
      Some("No start or dev script found in package.json. Add a 'dev' or 'start' script.")
  {
    assert ChooseStart(ScriptsOf(o.manifest)).NoStartCommand?;
  }

  /** A failing mount stops before anything is spawned; a non-zero install
      exit stops before the manifest is read; a non-zero build exit stops
      before the server is started. */
  lemma FailFast(s: PreviewState, o: Outcomes)
    requires !Guarded(s, true)
    ensures o.mount.Some? ==> (AttemptSetup(s, true, o).spawned == [] && AttemptSetup(s, true, o).steps == [1, 2])
    ensures (o.mount.None? && o.install.Exited? && o.install.code != 0) ==>
      (AttemptSetup(s, true, o).failure == Some(InstallFailed(o.install.code))
       && AttemptSetup(s, true, o).spawned == [CleanCmd, InstallCmd]
       && AttemptSetup(s, true, o).steps == [1, 2, 3])
    ensures (o.mount.None? && o.install == Exited(0) && o.manifest.Parsed?
             && ChooseStart(o.manifest.scripts) == StartPlan(true, RunStart)
             && o.build.Exited? && o.build.code != 0) ==>
      (AttemptSetup(s, true, o).failure == Some(BuildFailed(o.build.code))
       && AttemptSetup(s, true, o).spawned == [CleanCmd, InstallCmd, BuildCmd])
  {
  }

  /** The clean step's outcome is swallowed: it never changes the attempt. */
  lemma CleanFailureSwallowed(s: PreviewState, hasInstance: bool, o: Outcomes, clean: SpawnResult)
    ensures AttemptSetup(s, hasInstance, o.(clean := clean)) == AttemptSetup(s, hasInstance, o)
  {
  }

  /** Every spawned command list is a prefix of the plan for the manifest read,
      so nothing runs out of order and the server is started last. */
  lemma SpawnedFollowsPlan(s: PreviewState, o: Outcomes)
    requires !Guarded(s, true)
    requires o.manifest.EmptyText? || o.manifest.Parsed?
    ensures AttemptSetup(s, true, o).spawned <= PlannedCommands(ChooseStart(ScriptsOf(o.manifest)))
  {
    var plan := ChooseStart(ScriptsOf(o.manifest));
    var planned := PlannedCommands(plan);
    var r := AttemptSetup(s, true, o);
    if o.mount.None? && o.install == Exited(0) {
      if plan.StartPlan? {
        if plan.build {
          assert planned == [CleanCmd, InstallCmd, BuildCmd, StartCmd(plan.args)];
        } else {
          assert planned == [CleanCmd, InstallCmd, StartCmd(plan.args)];
        }
      }
    }
  }

  /** After a failed attempt the guard admits a new one. */
  lemma RetryAfterFailure(s: PreviewState, o: Outcomes, o2: Outcomes)
    requires !Guarded(s, true)
    requires AttemptSetup(s, true, o).failure.Some?
    ensures AttemptSetup(AttemptSetup(s, true, o).state, true, o2).steps != []
  {
  }

  /** After a successful attempt the guard blocks another one. */
  lemma NoReentryAfterSuccess(s: PreviewState, o: Outcomes, o2: Outcomes)
    requires !Guarded(s, true)
    requires AttemptSetup(s, true, o).failure.None?
    ensures AttemptSetup(AttemptSetup(s, true, o).state, true, o2).steps == []
  {
  }

  // ---------------------------------------------------------------------
  // Server ready, re-setup, template change
  // ---------------------------------------------------------------------

  /** `${url}${url.includes("?") ? "&" : "?"}t=${token}`. */
  function CacheBust(url: string, token: string): (r: string)
    ensures BeforeFirst(r, '?') == BeforeFirst(url, '?')
    ensures |r| == |url| + 3 + |token| && r[..|url|] == url && r[|url| + 1..] == "t=" + token
    ensures r[|url|] == (if '?' in url then '&' else '?')
  {
    var r := url + (if '?' in url then "&" else "?") + "t=" + token;
    BeforeFirstAppend(url, '?', "t=" + token);
    BeforeFirstAppend(url, '?', "&t=" + token);
    assert '?' in url ==> r == url + ("&t=" + token);
    assert '?' !in url ==> r == url + ['?'] + ("t=" + token);
    r
  }

  /** Distinct tokens give distinct URLs. */
  lemma CacheBustInjective(url: string, t1: string, t2: string)
    ensures CacheBust(url, t1) == CacheBust(url, t2) ==> t1 == t2
  {
    if CacheBust(url, t1) == CacheBust(url, t2) {
      assert "t=" + t1 == CacheBust(url, t1)[|url| + 1..];
      assert t1 == ("t=" + t1)[2..];
      assert t2 == ("t=" + t2)[2..];
    }
  }

  /** `handleServerReady(port, url)`. */
  function ServerReady(s: PreviewState, url: string, token: string): (s': PreviewState)
    ensures s'.isSetupComplete && !s'.isSetupInProgress
    ensures s'.flags.ready && !s'.flags.starting
    ensures s'.flags.(starting := s.flags.starting, ready := s.flags.ready) == s.flags
    ensures s'.currentStep == s.currentStep && s'.setupError == s.setupError && s'.lastJson == s.lastJson
    ensures s'.previewUrl == CacheBust(url, token)
  {
    s.(previewUrl := CacheBust(url, token),
       flags := s.flags.(starting := false, ready := true),
       isSetupComplete := true,
       isSetupInProgress := false)
  }

  /** A repeated server-ready event for the same URL changes only the token. */
  lemma ServerReadyRepeat(s: PreviewState, url: string, t1: string, t2: string)
    ensures ServerReady(ServerReady(s, url, t1), url, t2) == ServerReady(s, url, t2)
    ensures ServerReady(s, url, t1).(previewUrl := "") == ServerReady(s, url, t2).(previewUrl := "")
    ensures t1 != t2 ==> ServerReady(s, url, t1).previewUrl != ServerReady(s, url, t2).previewUrl
  {
    CacheBustInjective(url, t1, t2);
  }

  /** The `forceResetup` effect. */
  function ForceResetup(s: PreviewState, force: bool): (s': PreviewState)
    ensures !force ==> s' == s
    ensures force ==> (!s'.isSetupComplete && !s'.isSetupInProgress && s'.currentStep == 0
                       && s'.previewUrl == "" && s'.flags == AllOff)
    ensures s'.setupError == s.setupError && s'.lastJson == s.lastJson
  {
    if force then
      s.(isSetupComplete := false, isSetupInProgress := false, previewUrl := "", currentStep := 0, flags := AllOff)
    else s
  }

  /** A forced re-setup lets the next attempt with an instance run. */
  lemma ResetupAdmitsSetup(s: PreviewState, o: Outcomes)
    ensures AttemptSetup(ForceResetup(s, true), true, o).steps != []
  {
  }

  /** The URL the template-change effect loads: the text before the first
      `?`, then a fresh token.  The `&` branch is dead: the cut text never
      holds a `?`. */
  function RefreshUrl(url: string, token: string): (r: string)
    ensures r == BeforeFirst(url, '?') + "?t=" + token
  {
    var base := BeforeFirst(url, '?');
    base + (if '?' in base then "&" else "?") + "t=" + token
  }

  /** The template-change effect for a snapshot `json` (the JSON text of the
      current template).  The guard's first test is on the previous text,
      which starts as `"null"`. */
  function TemplateChanged(s: PreviewState, json: string, token: string): (s': PreviewState)
    ensures s'.lastJson == json
    ensures s.lastJson != "" && json != s.lastJson && s.previewUrl != "" ==> s'.previewUrl == BeforeFirst(s.previewUrl, '?') + "?t=" + token
    ensures !(s.lastJson != "" && json != s.lastJson && s.previewUrl != "") ==> s'.previewUrl == s.previewUrl
    ensures s' == s.(previewUrl := s'.previewUrl, lastJson := json)
  {
    if s.lastJson != "" && json != s.lastJson && s.previewUrl != "" then
      s.(previewUrl := RefreshUrl(s.previewUrl, token), lastJson := json)
    else s.(lastJson := json)
  }

  /** A template edit after the server is ready republishes the served URL
      with a new token, without running any setup step. */
  lemma EditAfterReadyRefreshes(s: PreviewState, url: string, t1: string, json: string, t2: string)
    requires s.lastJson != "" && json != s.lastJson
    ensures TemplateChanged(ServerReady(s, url, t1), json, t2).previewUrl == BeforeFirst(url, '?') + "?t=" + t2
    ensures TemplateChanged(ServerReady(s, url, t1), json, t2).isSetupComplete
  {
    var r := ServerReady(s, url, t1);
    assert r.previewUrl != "" by {
      assert |r.previewUrl| == |url| + 3 + |t1|;
    }
  }

  // ---------------------------------------------------------------------
  // Step icons
  // ---------------------------------------------------------------------

  datatype StepIcon = Done | Active | Pending

  /** `getStepIcon(stepIndex)`. */
  function StepIconOf(stepIndex: int, currentStep: nat): (i: StepIcon)
    ensures i == Done <==> stepIndex < currentStep
    ensures i == Active <==> stepIndex == currentStep
  {
    if stepIndex < currentStep then Done
    else if stepIndex == currentStep then Active
    else Pending
  }

  /** Completed steps form a prefix and at most one step is active. */
  lemma StepIconsOrdered(currentStep: nat, i: int, j: int)
    requires i <= j
    ensures StepIconOf(j, currentStep) == Done ==> StepIconOf(i, currentStep) == Done
    ensures StepIconOf(i, currentStep) == Pending ==> StepIconOf(j, currentStep) == Pending
    ensures StepIconOf(i, currentStep) == Active && StepIconOf(j, currentStep) == Active ==> i == j
  {
  }

  // ---------------------------------------------------------------------
  // Reachable states
  // ---------------------------------------------------------------------

  datatype PreviewEvent =
    | Attempt(hasInstance: bool, outcomes: Outcomes)
    | Ready(url: string, token: string)
    | Resetup(force: bool)
    | TemplateEdit(json: string, token: string)

  function Apply(s: PreviewState, e: PreviewEvent): PreviewState
  {
    match e
    case Attempt(i, o) => AttemptSetup(s, i, o).state
    case Ready(u, t) => ServerReady(s, u, t)
    case Resetup(f) => ForceResetup(s, f)
    case TemplateEdit(j, t) => TemplateChanged(s, j, t)
  }

  function Run(s: PreviewState, events: seq<PreviewEvent>): PreviewState
    decreases |events|
  {
    if |events| == 0 then s else Run(Apply(s, events[0]), events[1..])
  }

  /** What holds of every state the component can reach. */
  predicate Consistent(s: PreviewState)
  {
    && !(s.isSetupComplete && s.isSetupInProgress)
    && (s.isSetupInProgress ==>
          (s.setupError.None? && s.currentStep == 4 && s.flags == LoadingFlags(false, false, false, true, false)))
    && (s.flags.ready ==> s.isSetupComplete)
    && !s.flags.transforming && !s.flags.mounting && !s.flags.installing
    && s.currentStep <= 4
  }

  lemma ApplyConsistent(s: PreviewState, e: PreviewEvent)
    requires Consistent(s)
    ensures Consistent(Apply(s, e))
  {
  }

  /** Setup is never complete and in progress at once; while in progress it
      waits at step 4 with no error; `ready` implies complete; and the
      transforming, mounting and installing flags are only ever on inside
      an attempt, never in a state another step sees. */
  lemma {:induction false} ReachableConsistent(events: seq<PreviewEvent>)
    ensures Consistent(Run(Initial, events))
  {
    RunConsistent(Initial, events);
  }

  lemma {:induction false} RunConsistent(s: PreviewState, events: seq<PreviewEvent>)
    requires Consistent(s)
    ensures Consistent(Run(s, events))
    decreases |events|
  {
    if |events| > 0 {
      ApplyConsistent(s, events[0]);
      RunConsistent(Apply(s, events[0]), events[1..]);
    }
  }

  /** With non-empty snapshot texts, the previous snapshot read by the
      template-change guard is never empty, so that test never blocks. */
  lemma {:induction false} LastJsonNeverEmpty(s: PreviewState, events: seq<PreviewEvent>)
    requires s.lastJson != ""
    requires forall i :: 0 <= i < |events| && events[i].TemplateEdit? ==> events[i].json != ""
    ensures Run(s, events).lastJson != ""
    decreases |events|
  {
    if |events| > 0 {
      assert forall i :: 0 <= i < |events[1..]| && events[1..][i].TemplateEdit? ==> events[1..][i].json != "" by {
        forall i | 0 <= i < |events[1..]| && events[1..][i].TemplateEdit?
          ensures events[1..][i].json != ""
        {
          assert events[1..][i] == events[i + 1];
        }
      }
      LastJsonNeverEmpty(Apply(s, events[0]), events[1..]);
    }
  }
}

=== FILE: route_guard.dfy ===
/**
 The request middleware's routing decision.  The route table (the API-auth
 prefix, the public and auth route lists and the default post-login
 redirect) lives in a routes module that is not part of this model, so it
 is a parameter here.  Redirect targets are kept as the relative paths the
 middleware resolves against the request URL.
 */
module RouteGuard {
  import opened Common

  datatype Routes = Routes(apiAuthPrefix: string, publicRoutes: seq<string>, authRoutes: seq<string>, defaultLoginRedirect: string)

  /** `null` lets the request through; a redirect names its target path. */
  datatype Decision = Pass | Redirect(target: string)

  const SignInPage := "/auth/sign-in"

  /** The middleware's decision for a request to `pathname`. */
  function Decide(isLoggedIn: bool, pathname: string, routes: Routes): (d: Decision)
    ensures d.Redirect? ==> d.target == routes.defaultLoginRedirect || d.target == SignInPage
    ensures StartsWith(pathname, routes.apiAuthPrefix) ==> d == Pass
    ensures !StartsWith(pathname, routes.apiAuthPrefix) && pathname in routes.authRoutes ==>
      (d == Pass <==> !isLoggedIn)
    ensures d == Redirect(SignInPage) && SignInPage != routes.defaultLoginRedirect ==> !isLoggedIn
  {
    var isApiAuthRoute := StartsWith(pathname, routes.apiAuthPrefix);
    var isPublicRoute := pathname in routes.publicRoutes;
    var isAuthRoute := pathname in routes.authRoutes;
    if isApiAuthRoute then Pass
    else if isAuthRoute then (if isLoggedIn then Redirect(routes.defaultLoginRedirect) else Pass)
    else if !isLoggedIn && !isPublicRoute then Redirect(SignInPage)
    else Pass
  }

  /** The full case table: auth routes bounce signed-in users to the default
      page, every other non-public route sends anonymous users to sign in,
      and everything else passes. */
  lemma DecideCases(isLoggedIn: bool, pathname: string, routes: Routes)
    requires !StartsWith(pathname, routes.apiAuthPrefix)
    ensures pathname in routes.authRoutes && isLoggedIn ==>
      Decide(isLoggedIn, pathname, routes) == Redirect(routes.defaultLoginRedirect)
    ensures pathname !in routes.authRoutes && !isLoggedIn && pathname !in routes.publicRoutes ==>
      Decide(isLoggedIn, pathname, routes) == Redirect(SignInPage)
    ensures pathname !in routes.authRoutes && (isLoggedIn || pathname in routes.publicRoutes) ==>
      Decide(isLoggedIn, pathname, routes) == Pass
  {
  }

  /** A signed-in user is redirected only away from an auth route, and an
      anonymous user is never redirected away from a public route. */
  lemma RedirectReasons(isLoggedIn: bool, pathname: string, routes: Routes)
    ensures isLoggedIn && Decide(isLoggedIn, pathname, routes).Redirect? ==>
      pathname in routes.authRoutes && Decide(isLoggedIn, pathname, routes).target == routes.defaultLoginRedirect
    ensures !isLoggedIn && pathname in routes.publicRoutes ==> Decide(isLoggedIn, pathname, routes) == Pass
  {
  }

  /** Route membership is exact equality: a path that merely extends a
      listed route is not on the list, whereas any extension of the API-auth
      prefix passes. */
  lemma MembershipIsExact(isLoggedIn: bool, route: string, suffix: string, routes: Routes)
    requires suffix != ""
    requires forall r :: r in routes.publicRoutes + routes.authRoutes ==> |r| <= |route|
    requires !StartsWith(route + suffix, routes.apiAuthPrefix)
    ensures !isLoggedIn ==> Decide(isLoggedIn, route + suffix, routes) == Redirect(SignInPage)
    ensures Decide(true, routes.apiAuthPrefix + suffix, routes) == Pass
  {
    assert route + suffix !in routes.publicRoutes + routes.authRoutes;
    assert StartsWith(routes.apiAuthPrefix + suffix, routes.apiAuthPrefix);
  }
}

=== FILE: template_tree.dfy ===
/**
 The template tree that the editor keeps in memory and that the preview
 mounts into the sandbox, and its flattening into a depth-first list of
 file writes (`processItem` in the web-container hook).

 A tree node arrives as a loosely typed record: whether it is a folder or a
 file is decided by which keys it carries, not by a tag.  `folderName`
 wins over `filename`; a record with neither key is ignored.
 */
module TemplateTree {
  import opened Common

  /** One record of the template JSON.  `None` means the key is absent.
      `isArray` says whether `items` is present and an array; when it is
      false, `items` carries no meaning. */
  datatype Item = Item(
    folderName: Option<string>,
    isArray: bool,
    items: seq<Item>,
    filename: Option<string>,
    fileExtension: Option<string>,
    content: Option<string>)

  /** One `writeFile(path, content)` issued by the flattening. */
  datatype Entry = Entry(path: string, content: string)

  function Folder(name: string, children: seq<Item>): Item
  {
    Item(Some(name), true, children, None, None, None)
  }

  function File(name: string, ext: string, content: string): Item
  {
    Item(None, false, [], Some(name), Some(ext), Some(content))
  }

  predicate IsFolder(it: Item)
  {
    it.folderName.Some?
  }

  predicate IsFile(it: Item)
  {
    it.folderName.None? && it.filename.Some?
  }

  /** A `${...}` interpolation of a possibly missing key prints `undefined`. */
  function Interpolate(s: Option<string>): string
  {
    if s.Some? then s.value else "undefined"
  }

  /** `filename.fileExtension` of a file record. */
  function LeafName(it: Item): string
  {
    Interpolate(it.filename) + "." + Interpolate(it.fileExtension)
  }

  /** `item.content || ""`. */
  function ContentText(content: Option<string>): (r: string)
    ensures content.None? ==> r == ""
    ensures content.Some? ==> r == content.value
  {
    if Truthy(content) then content.value else ""
  }

  /** The path of `name` under `dir`: no leading `/` while `dir` is still empty. */
  function ChildPath(dir: string, name: string): string
  {
    if dir != "" then dir + "/" + name else name
  }

  /** `processItem(item, dir)`: the writes one record produces, depth first. */
  function FlattenItem(it: Item, dir: string): (r: seq<Entry>)
    ensures forall e :: e in r ==> dir == "" || StartsWith(e.path, dir + "/")
    ensures !IsFolder(it) && !IsFile(it) ==> r == []
    decreases it
  {
    if IsFolder(it) then
      if it.isArray then FlattenItems(it.items, ChildPath(dir, it.folderName.value)) else []
    else if IsFile(it) then
      [Entry(ChildPath(dir, LeafName(it)), ContentText(it.content))]
    else
      []
  }

  /** The records of one `items` array processed in order. */
  function FlattenItems(items: seq<Item>, dir: string): (r: seq<Entry>)
    ensures forall e :: e in r ==> dir == "" || StartsWith(e.path, dir + "/")
    decreases items
  {
    if |items| == 0 then []
    else FlattenItem(items[0], dir) + FlattenItems(items[1..], dir)
  }

  /** Sync of a whole template: the root's items at the empty path, so the
      root folder's own name never appears in a path. */
  function Flatten(root: Item): (r: seq<Entry>)
    ensures !root.isArray ==> r == []
    ensures root.isArray ==> r == RenderAll(ItemsLeaves(root.items, []))
  {
    if root.isArray then
      FlattenItemsIsLeaves(root.items, []);
      FlattenItems(root.items, "")
    else []
  }

  // ---------------------------------------------------------------------
  // Reference description: the file leaves of a tree with their ancestors.
  // ---------------------------------------------------------------------

  /** A file record reached below the folders named in `ancestors`
      (outermost first, the root folder excluded). */
  datatype Leaf = Leaf(ancestors: seq<string>, file: Item)

  /** The folder path of a list of folder names, built the way the
      flattening builds it, one `ChildPath` step per folder. */
  function PathOf(ancestors: seq<string>): string
  {
    if |ancestors| == 0 then ""
    else ChildPath(PathOf(ancestors[..|ancestors| - 1]), ancestors[|ancestors| - 1])
  }

  /** The file leaves of one record: folders contribute their descendants,
      files themselves, anything else nothing. */
  function ItemLeaves(it: Item, ancestors: seq<string>): (r: seq<Leaf>)
    ensures forall l :: l in r ==> IsFile(l.file) && ancestors <= l.ancestors
    decreases it
  {
    if IsFolder(it) then
      (if it.isArray then ItemsLeaves(it.items, ancestors + [it.folderName.value]) else [])
    else if IsFile(it) then [Leaf(ancestors, it)]
    else []
  }

  function ItemsLeaves(items: seq<Item>, ancestors: seq<string>): (r: seq<Leaf>)
    ensures forall l :: l in r ==> IsFile(l.file) && ancestors <= l.ancestors
    decreases items
  {
    if |items| == 0 then [] else ItemLeaves(items[0], ancestors) + ItemsLeaves(items[1..], ancestors)
  }

  /** The write a leaf stands for. */
  function Render(l: Leaf): Entry
  {
    Entry(ChildPath(PathOf(l.ancestors), LeafName(l.file)), ContentText(l.file.content))
  }

  function RenderAll(ls: seq<Leaf>): (r: seq<Entry>)
    ensures |r| == |ls|
    ensures forall i :: 0 <= i < |ls| ==> r[i] == Render(ls[i])
  {
    if |ls| == 0 then [] else [Render(ls[0])] + RenderAll(ls[1..])
  }

  lemma RenderAllAppend(a: seq<Leaf>, b: seq<Leaf>)
    ensures RenderAll(a + b) == RenderAll(a) + RenderAll(b)
  {
  }

  /** The flattening writes exactly one entry per file leaf, depth first in
      `items` order, each at the path of its ancestor folders. */
  lemma {:induction false} FlattenItemIsLeaves(it: Item, ancestors: seq<string>)
    ensures FlattenItem(it, PathOf(ancestors)) == RenderAll(ItemLeaves(it, ancestors))
    decreases it
  {
    if IsFolder(it) && it.isArray {
      var anc' := ancestors + [it.folderName.value];
      assert anc'[..|anc'| - 1] == ancestors;
      FlattenItemsIsLeaves(it.items, anc');
    }
  }

  lemma {:induction false} FlattenItemsIsLeaves(items: seq<Item>, ancestors: seq<string>)
    ensures FlattenItems(items, PathOf(ancestors)) == RenderAll(ItemsLeaves(items, ancestors))
    decreases items
  {
    if |items| > 0 {
      FlattenItemIsLeaves(items[0], ancestors);
      FlattenItemsIsLeaves(items[1..], ancestors);
      RenderAllAppend(ItemLeaves(items[0], ancestors), ItemsLeaves(items[1..], ancestors));
    }
  }

  /** Syncing a whole template writes its file leaves, with the root
      folder's own name left out of every path. */
  lemma FlattenIsLeaves(root: Item)
    ensures root.isArray ==> Flatten(root) == RenderAll(ItemsLeaves(root.items, []))
    ensures !root.isArray ==> Flatten(root) == []
    ensures forall e :: e in Flatten(root) ==> exists l :: l in ItemsLeaves(root.items, []) && e == Render(l)
  {
    if root.isArray {
      FlattenItemsIsLeaves(root.items, []);
      var ls := ItemsLeaves(root.items, []);
      forall e | e in Flatten(root)
        ensures exists l :: l in ls && e == Render(l)
      {
        var i :| 0 <= i < |Flatten(root)| && Flatten(root)[i] == e;
        assert ls[i] in ls;
      }
    }
  }

  /** Processing two arrays one after the other writes their entries one after the other. */
  lemma {:induction false} FlattenItemsAppend(a: seq<Item>, b: seq<Item>, dir: string)
    ensures FlattenItems(a + b, dir) == FlattenItems(a, dir) + FlattenItems(b, dir)
  {
    if |a| > 0 {
      FlattenItemsAppend(a[1..], b, dir);
      assert (a + b)[1..] == a[1..] + b;
      assert (a + b)[0] == a[0];
    } else {
      assert a + b == b;
    }
  }

  /** A record with a `folderName` is a folder even when it also carries
      file keys; a record with neither key writes nothing. */
  lemma FolderKeyWins(it: Item, dir: string)
    ensures IsFolder(it) ==> FlattenItem(it, dir) == FlattenItem(it.(filename := None, fileExtension := None, content := None), dir)
    ensures it.folderName.None? && it.filename.None? ==> FlattenItem(it, dir) == []
  {
  }

  /** A folder whose `items` is empty or not an array writes nothing. */
  lemma EmptyFolderWritesNothing(name: string, dir: string)
    ensures FlattenItem(Folder(name, []), dir) == []
    ensures FlattenItem(Folder(name, []).(isArray := false), dir) == []
  {
  }

  /** With non-empty, slash-free folder names the folder path is the names
      joined by `/`. */
  lemma {:induction false} PathOfIsJoin(ancestors: seq<string>)
    requires forall i :: 0 <= i < |ancestors| ==> ancestors[i] != ""
    ensures PathOf(ancestors) == Join(ancestors, '/')
  {
    if |ancestors| > 1 {
      var init := ancestors[..|ancestors| - 1];
      PathOfIsJoin(init);
      JoinSnoc(init, ancestors[|ancestors| - 1], '/');
      assert init + [ancestors[|ancestors| - 1]] == ancestors;
      assert Join(init, '/') != "" by {
        assert init[0] != "";
        if |init| > 1 {
          assert Join(init, '/') == init[0] + ['/'] + Join(init[1..], '/');
        }
      }
    }
  }

  /** A file path splits at `/` into the ancestor folder names followed by
      `filename.fileExtension`, when none of these is empty or holds a `/`. */
  lemma LeafPathShape(l: Leaf)
    requires forall i :: 0 <= i < |l.ancestors| ==> l.ancestors[i] != "" && '/' !in l.ancestors[i]
    requires '/' !in LeafName(l.file)
    ensures Split(Render(l).path, '/') == l.ancestors + [LeafName(l.file)]
  {
    var anc := l.ancestors;
    var name := LeafName(l.file);
    var parts := anc + [name];
    PathOfIsJoin(anc);
    if |anc| == 0 {
      assert Render(l).path == name;
      SplitNoSeparator(name, '/');
    } else {
      JoinSnoc(anc, name, '/');
      assert Join(anc, '/') != "" by {
        if |anc| > 1 {
          assert Join(anc, '/') == anc[0] + ['/'] + Join(anc[1..], '/');
        }
      }
      assert Render(l).path == Join(parts, '/');
      SplitJoin(parts, '/');
    }
  }
}

=== FILE: web_container_hook.dfy ===
/**
 The web-container hook: writing files into the sandbox filesystem, the
 template sync that replays the flattened tree as such writes, and the
 hook's own small state (instance handle, server URL, loading, error).

 The sandbox filesystem is an oracle: `fails(op)` is the message of the
 error that operation throws, or `None` when it succeeds.
 */
module WebContainerHook {
  import opened Common
  import opened TemplateTree

  datatype FsOp = Mkdir(dir: string) | WriteFile(path: string, content: string)

  /** `path.split("/").slice(0, -1).join("/")`: a prefix of the path which,
      when non-empty, is followed by the last `/` of the path. */
  function ParentDir(path: string): (r: string)
    ensures r <= path
    ensures r != "" ==> |r| < |path| && path[|r|] == '/' && '/' !in path[|r| + 1..]
  {
    var parts := Split(path, '/');
    var n := |parts|;
    if n >= 2 then
      var r := Join(parts[..n - 1], '/');
      SplitLast(path, '/');
      SplitPiecesFree(path, '/');
      assert path[|r| + 1..] == parts[n - 1];
      r
    else
      Join(parts[..n - 1], '/')
  }

  /** The parent directory is the text before the last `/`. */
  lemma ParentDirBeforeLastSlash(path: string, k: nat)
    requires k < |path| && path[k] == '/'
    requires forall j :: k < j < |path| ==> path[j] != '/'
    ensures ParentDir(path) == path[..k]
  {
    var last := path[k + 1..];
    assert '/' !in last by {
      forall j | 0 <= j < |last| ensures last[j] != '/' {
        assert last[j] == path[k + 1 + j];
      }
    }
    assert path == path[..k] + ['/'] + last;
    SplitAppend(path[..k], '/', last);
    SplitNoSeparator(last, '/');
    var parts := Split(path, '/');
    assert parts[..|parts| - 1] == Split(path[..k], '/');
    JoinSplit(path[..k], '/');
  }

  /** Without any `/` there is no parent directory. */
  lemma ParentDirNoSlash(path: string)
    requires '/' !in path
    ensures ParentDir(path) == ""
  {
    SplitNoSeparator(path, '/');
  }

  /** A `mkdir` is needed exactly when the path has a `/` after its first character. */
  lemma ParentDirNonEmptyIff(path: string)
    ensures ParentDir(path) != "" <==> exists i :: 0 < i < |path| && path[i] == '/'
  {
    if '/' in path {
      var k :| 0 <= k < |path| && path[k] == '/';
      while k + 1 < |path| && '/' in path[k + 1..]
        invariant 0 <= k < |path| && path[k] == '/'
        decreases |path| - k
      {
        var j :| 0 <= j < |path[k + 1..]| && path[k + 1..][j] == '/';
        k := k + 1 + j;
      }
      assert forall j :: k < j < |path| ==> path[j] != '/' by {
        forall j | k < j < |path| ensures path[j] != '/' {
          assert path[j] == path[k + 1..][j - k - 1];
        }
      }
      ParentDirBeforeLastSlash(path, k);
    } else {
      ParentDirNoSlash(path);
    }
  }

  /** The folder under which a file of the tree is written is its parent directory. */
  lemma ParentOfChildPath(dir: string, name: string)
    requires '/' !in name
    ensures ParentDir(ChildPath(dir, name)) == dir
  {
    if dir == "" {
      ParentDirNoSlash(name);
    } else {
      SplitAppend(dir, '/', name);
      SplitNoSeparator(name, '/');
      var parts := Split(ChildPath(dir, name), '/');
      assert parts[..|parts| - 1] == Split(dir, '/');
      JoinSplit(dir, '/');
    }
  }

  /** The operations `writeFile(path, content)` issues: a recursive `mkdir`
      of the parent directory when it is non-empty, then the write. */
  function WriteFileOps(path: string, content: string): (ops: seq<FsOp>)
    ensures |ops| >= 1 && ops[|ops| - 1] == WriteFile(path, content)
    ensures |ops| == 2 <==> ParentDir(path) != ""
    ensures |ops| == 2 ==> ops[0] == Mkdir(ParentDir(path))
    ensures |ops| <= 2
  {
    var dir := ParentDir(path);
    (if dir != "" then [Mkdir(dir)] else []) + [WriteFile(path, content)]
  }

  /** Runs operations in order until one throws; the throwing one is
      included, as it was attempted. */
  function RunOps(ops: seq<FsOp>, fails: FsOp -> Option<string>): (r: (seq<FsOp>, Option<string>))
    ensures r.0 <= ops
    ensures r.1.None? <==> r.0 == ops && forall i :: 0 <= i < |ops| ==> fails(ops[i]).None?
    ensures r.1.Some? ==> |r.0| > 0 && fails(r.0[|r.0| - 1]) == r.1
    ensures r.1.Some? ==> forall i :: 0 <= i < |r.0| - 1 ==> fails(r.0[i]).None?
  {
    if |ops| == 0 then ([], None)
    else if fails(ops[0]).Some? then ([ops[0]], fails(ops[0]))
    else
      var rest := RunOps(ops[1..], fails);
      assert forall i :: 0 < i < |ops| ==> ops[i] == ops[1..][i - 1];
      ([ops[0]] + rest.0, rest.1)
  }

  /** What `writeFileSync` did: the operations attempted and the error it threw, if any. */
  datatype WriteOutcome = WriteOutcome(performed: seq<FsOp>, error: Option<string>)

  const NotInitialized := "WebContainer instance is not initialized"

  function WriteFailedMessage(path: string, msg: string): string
  {
    "Failed to write file at " + path + ": " + msg
  }

  /** `writeFileSync(path, content)`. */
  function WriteFileSync(hasInstance: bool, path: string, content: string, fails: FsOp -> Option<string>): (r: WriteOutcome)
    ensures !hasInstance ==> r == WriteOutcome([], Some(NotInitialized))
    ensures hasInstance ==> r.performed <= WriteFileOps(path, content)
    ensures hasInstance && r.error.None? ==> r.performed == WriteFileOps(path, content)
    ensures hasInstance && r.error.Some? ==>
      |r.performed| > 0
      && fails(r.performed[|r.performed| - 1]).Some?
      && r.error == Some(WriteFailedMessage(path, fails(r.performed[|r.performed| - 1]).value))
    ensures hasInstance && r.error.Some? ==> forall i :: 0 <= i < |r.performed| - 1 ==> fails(r.performed[i]).None?
  {
    if !hasInstance then WriteOutcome([], Some(NotInitialized))
    else
      var run := RunOps(WriteFileOps(path, content), fails);
      match run.1
      case None => WriteOutcome(run.0, None)
      case Some(msg) => WriteOutcome(run.0, Some(WriteFailedMessage(path, msg)))
  }

  /** Every write of the flattened tree, each preceded by its `mkdir` when needed. */
  function SyncOps(entries: seq<Entry>): (ops: seq<FsOp>)
  {
    if |entries| == 0 then []
    else WriteFileOps(entries[0].path, entries[0].content) + SyncOps(entries[1..])
  }

  /** The entries the write operations of a sequence stand for. */
  function Writes(ops: seq<FsOp>): seq<Entry>
  {
    if |ops| == 0 then []
    else (match ops[0]
          case WriteFile(p, c) => [Entry(p, c)]
          case Mkdir(_) => []) + Writes(ops[1..])
  }

  lemma {:induction false} WritesAppend(a: seq<FsOp>, b: seq<FsOp>)
    ensures Writes(a + b) == Writes(a) + Writes(b)
  {
    if |a| > 0 {
      WritesAppend(a[1..], b);
      assert (a + b)[1..] == a[1..] + b;
    } else {
      assert a + b == b;
    }
  }

  /** The sync writes exactly the flattened entries, in order, and every
      `mkdir` it issues is the parent directory of the write that follows it. */
  lemma {:induction false} SyncWritesEntries(entries: seq<Entry>)
    ensures Writes(SyncOps(entries)) == entries
    ensures forall i :: 0 <= i < |SyncOps(entries)| && SyncOps(entries)[i].Mkdir? ==>
      i + 1 < |SyncOps(entries)| && SyncOps(entries)[i + 1].WriteFile?
      && SyncOps(entries)[i].dir == ParentDir(SyncOps(entries)[i + 1].path) != ""
  {
    SyncWrites(entries);
    SyncMkdirs(entries);
  }

  lemma {:induction false} SyncWrites(entries: seq<Entry>)
    ensures Writes(SyncOps(entries)) == entries
  {
    if |entries| > 0 {
      var e := entries[0];
      var head := WriteFileOps(e.path, e.content);
      SyncWrites(entries[1..]);
      WritesAppend(head, SyncOps(entries[1..]));
      assert Writes(head) == [e] by {
        if |head| == 2 {
          assert head[1..] == [WriteFile(e.path, e.content)];
        }
      }
    }
  }

  lemma {:induction false} SyncMkdirs(entries: seq<Entry>)
    ensures forall i :: 0 <= i < |SyncOps(entries)| && SyncOps(entries)[i].Mkdir? ==>
      i + 1 < |SyncOps(entries)| && SyncOps(entries)[i + 1].WriteFile?
      && SyncOps(entries)[i].dir == ParentDir(SyncOps(entries)[i + 1].path) != ""
  {
    if |entries| > 0 {
      var e := entries[0];
      var head := WriteFileOps(e.path, e.content);
      SyncMkdirs(entries[1..]);
      var ops := SyncOps(entries);
      var tail := SyncOps(entries[1..]);
      assert ops == head + tail;
      forall i | 0 <= i < |ops| && ops[i].Mkdir?
        ensures i + 1 < |ops| && ops[i + 1].WriteFile? && ops[i].dir == ParentDir(ops[i + 1].path) != ""
      {
        if i >= |head| {
          assert ops[i] == tail[i - |head|];
          assert ops[i + 1] == tail[i + 1 - |head|];
        } else {
          assert i == 0 && |head| == 2 && ops[0] == head[0] && ops[1] == head[1];
        }
      }
    }
  }

  /** Running the sync operations of `entries` until one throws. */
  lemma SyncRun(entries: seq<Entry>, fails: FsOp -> Option<string>)
    ensures var p := RunOps(SyncOps(entries), fails).0;
      && p <= SyncOps(entries)
      && ((forall op :: fails(op).None?) ==> Writes(p) == entries)
      && (forall i :: 0 <= i < |p| - 1 ==> fails(p[i]).None?)
      && (p != SyncOps(entries) ==> |p| > 0 && fails(p[|p| - 1]).Some?)
  {
    SyncWrites(entries);
  }

  /** The template sync effect: nothing without an instance or template;
      otherwise every write of the flattened tree until one throws (the
      error is logged and swallowed). */
  function SyncTemplate(hasInstance: bool, templateData: Option<Item>, fails: FsOp -> Option<string>): (performed: seq<FsOp>)
    ensures !hasInstance || templateData.None? ==> performed == []
    ensures hasInstance && templateData.Some? ==> performed <= SyncOps(Flatten(templateData.value))
    ensures hasInstance && templateData.Some? && (forall op :: fails(op).None?) ==>
      Writes(performed) == Flatten(templateData.value)
    ensures forall i :: 0 <= i < |performed| - 1 ==> fails(performed[i]).None?
    ensures hasInstance && templateData.Some? && performed != SyncOps(Flatten(templateData.value)) ==>
      |performed| > 0 && fails(performed[|performed| - 1]).Some?
  {
    if !hasInstance || templateData.None? then []
    else
      var entries := Flatten(templateData.value);
      SyncRun(entries, fails);
      RunOps(SyncOps(entries), fails).0
  }

  /** The hook's state; the instance is an opaque handle number. */
  datatype HookState = HookState(instance: Option<nat>, serverUrl: Option<string>, isLoading: bool, error: Option<string>)

  const InitialHook := HookState(None, None, true, None)

  /** How `WebContainer.boot()` ended: a handle, or a thrown value that is
      an `Error` with a message or something else. */
  datatype BootOutcome = Booted(handle: nat) | BootError(message: string) | BootThrewNonError

  /** The boot effect's continuation (the unmount race is not modelled). */
  function Boot(s: HookState, outcome: BootOutcome): (s': HookState)
    ensures !s'.isLoading && s'.serverUrl == s.serverUrl
    ensures outcome.Booted? ==> s'.instance == Some(outcome.handle) && s'.error == s.error
    ensures outcome.BootError? ==> s'.instance == s.instance && s'.error == Some(outcome.message)
    ensures outcome.BootThrewNonError? ==> s'.instance == s.instance && s'.error == Some("Failed to initiailize WebContainer")
  {
    match outcome
    case Booted(h) => s.(instance := Some(h), isLoading := false)
    case BootError(msg) => s.(error := Some(msg), isLoading := false)
    case BootThrewNonError => s.(error := Some("Failed to initiailize WebContainer"), isLoading := false)
  }

  /** `destroy()`: tears the instance down and forgets it and the server URL;
      without an instance nothing happens.  Also returns the handle torn down. */
  function Destroy(s: HookState): (r: (HookState, Option<nat>))
    ensures s.instance.None? ==> r.0 == s && r.1.None?
    ensures s.instance.Some? ==> r.1 == s.instance && r.0.instance.None? && r.0.serverUrl.None?
    ensures r.0.isLoading == s.isLoading && r.0.error == s.error
  {
    if s.instance.Some? then (s.(instance := None, serverUrl := None), s.instance) else (s, None)
  }

  lemma DestroyIdempotent(s: HookState)
    ensures Destroy(Destroy(s).0) == (Destroy(s).0, None)
  {
  }

  datatype HookEvent = BootDone(outcome: BootOutcome) | DestroyCalled

  function ApplyHook(s: HookState, e: HookEvent): HookState
  {
    match e
    case BootDone(o) => Boot(s, o)
    case DestroyCalled => Destroy(s).0
  }

  function RunHook(s: HookState, events: seq<HookEvent>): HookState
    decreases |events|
  {
    if |events| == 0 then s else RunHook(ApplyHook(s, events[0]), events[1..])
  }

  /** No step of the hook ever assigns a non-null server URL, so it stays null. */
  lemma {:induction false} ServerUrlStaysNull(s: HookState, events: seq<HookEvent>)
    requires s.serverUrl.None?
    ensures RunHook(s, events).serverUrl.None?
    decreases |events|
  {
    if |events| > 0 {
      ServerUrlStaysNull(ApplyHook(s, events[0]), events[1..]);
    }
  }
}
